=== FILE: README.md ===
# Electron `net` request session and devtools-extension registry, in Dafny

This project models three cooperating pieces of Electron's browser process
and proves properties about them:

- **`atom::AtomURLRequest`** is the native session behind `net.request`.
  - It lives on two threads. The UI thread creates the session, edits request headers and forwards authentication answers. The IO thread drives a `net::URLRequest`, reads the response body through one reusable 4096-byte buffer and posts notifications back to the UI thread.
  - Each direction of `PostTask` is a FIFO queue with a room budget, so a post that fails is part of the model (`Queues`).
  - The transport is an oracle: a status plus a script of read outcomes, each of which is bytes, pending or failure (`Transport`).
  - The delegate's weak pointer is a per-task "still alive" flag.
- **`ClientRequest`** is the JavaScript façade in `lib/browser/api/net.js`.
  - The constructor validates the method, protocol and path and resolves the URL.
  - The header API keeps a JS-side copy of the extra headers next to the native ones.
  - The `chunkedEncoding` setter takes any value until the native request has started, and throws after that.
  - `write`, `end` and `abort` map onto native write and cancel calls.
  - JavaScript values, truthiness and the thrown errors are modelled explicitly: errors by class (`TypeError` versus `Error`), with the program's own messages. Messages composed by the JavaScript engine are stated by class only.
- **The devtools-extension registry** in `lib/browser/chrome-extension.js`:
  - the host-name allocator `extension-N`;
  - the manifest cache, keyed by manifest name in insertion order;
  - generated background pages;
  - loading extensions into devtools windows;
  - the `chrome-extension:` protocol router;
  - the list persisted on `will-quit` and preheated on `ready`.

`URLRequestStatus::is_success()` is true both for a finished request and for one waiting on asynchronous I/O, as it is in Chromium. `Transport.IsSuccess` follows that. It is the reason the IO-thread read loop can finish with I/O pending and post no `Completed`: the transport's own callback finishes the job later. That callback is `AtomUrlRequest.OnAsyncReadCompleted`, which resumes the loop with the outcome of the asynchronous read (`Transport.CompleteRead`).

Modules:

- `Wrappers`: `Option` and `Result`.
- `Ascii`: ASCII case mapping and decimal rendering and parsing.
- `Queues`: thread task queues.
- `Transport`: the `net::URLRequest` oracle.
- `AtomUrlRequest`: the native session.
- `UrlRequestStream`: end-to-end delivery, checked against a reference reading of the transport.
- `ClientRequest`: the JS façade.
- `ChromeExtension`: the extension registry and router.

Where the code and its prose description disagree, the model follows the code:

- `Abort` on the native session does nothing; it does not cancel anything.
- A failed post of a data chunk makes the read loop return without ever posting `Completed`.
- The loop also posts no `Completed` while I/O is pending.

## Model

| member | source | states |
|---|---|---|
| Transport.Read | atom/browser/net/atom_url_request.cc:176-181 | a read hands over at most `kBufferSize` bytes; a synchronous read keeps the status; an asynchronous or failed one leaves it not `Success` |
| AtomUrlRequest.Create | atom/browser/net/atom_url_request.cc:22-56 | a new session has posted nothing in either direction and captured no response headers; it carries the given method, and the URL, status, header store and read script of the request the context created; it has its own 4096-byte buffer, so when the transport never hands over more than that, the session satisfies every precondition of the read loop |
| AtomUrlRequest.End | atom/browser/net/atom_url_request.cc:62-67 | ending posts exactly one start command to the IO thread when it accepts tasks, and changes nothing else |
| AtomUrlRequest.Write | atom/browser/net/atom_url_request.cc:58-60 | writing upload data leaves the session unchanged |
| AtomUrlRequest.Abort | atom/browser/net/atom_url_request.cc:69-71 | aborting leaves the session unchanged |
| AtomUrlRequest.SetHeader | atom/browser/net/atom_url_request.cc:73-77 | the header is stored under its case-insensitive name, overwriting any earlier value; other headers are kept |
| AtomUrlRequest.RemoveHeader | atom/browser/net/atom_url_request.cc:92-95 | exactly the named header, compared ignoring case, disappears from the extra headers |
| AtomUrlRequest.GetHeader | atom/browser/net/atom_url_request.cc:79-90 | an extra header wins; otherwise the value the transport sent is returned; otherwise the empty string |
| AtomUrlRequest.GetHeaderAsWritten | atom/browser/net/atom_url_request.cc:79-90 | as written, only the extra headers are ever consulted |
| AtomUrlRequest.GetHeaderAsWrittenLosesFallback | atom/browser/net/atom_url_request.cc:84-87 | there is a request whose header the transport sent but which the written lookup reports as empty |
| AtomUrlRequest.SetThenGetHeader | atom/browser/net/atom_url_request.cc:73-90 | a header that was set reads back under any capitalisation of its name |
| AtomUrlRequest.SetHeaderIdempotent | atom/browser/net/atom_url_request.cc:73-77 | setting the same header twice equals setting it once |
| AtomUrlRequest.RemoveAbsentHeaderIsNoop | atom/browser/net/atom_url_request.cc:92-95 | removing a header that is not there changes nothing |
| AtomUrlRequest.RemoveThenGetHeader | atom/browser/net/atom_url_request.cc:79-95 | after removal, a lookup under any capitalisation returns the value the transport sent, or the empty string |
| AtomUrlRequest.PassLoginInformation | atom/browser/net/atom_url_request.cc:106-119 | an empty user name or password posts a cancel-auth command, otherwise a set-auth command with both credentials; nothing else changes |
| AtomUrlRequest.RunIoCommand | atom/browser/net/atom_url_request.cc:122-137 | start, set-auth and cancel-auth each append exactly their own call to the transport |
| AtomUrlRequest.CredentialsReachTransport | atom/browser/net/atom_url_request.cc:106-137 | the transport receives a set-auth call with both credentials exactly when both are non-empty, and a cancel-auth call otherwise |
| AtomUrlRequest.OnAuthRequired | atom/browser/net/atom_url_request.cc:139-148 | an auth challenge posts exactly one auth-required notification carrying the challenge |
| AtomUrlRequest.CopyOut | atom/browser/net/atom_url_request.cc:213-217 | the copy holds exactly the first `n` bytes of the buffer |
| AtomUrlRequest.CopyOutRecoversRead | atom/browser/net/atom_url_request.cc:176-217 | the copy of a filled buffer is exactly the bytes the read delivered |
| AtomUrlRequest.CopyAndPostBuffer | atom/browser/net/atom_url_request.cc:213-224 | the result is true exactly when the UI thread accepted a data notification carrying those bytes |
| AtomUrlRequest.FinishLoop | atom/browser/net/atom_url_request.cc:205-210 | the loop posts completion exactly when I/O is not pending |
| AtomUrlRequest.OnReadCompleted | atom/browser/net/atom_url_request.cc:185-211 | the read loop only appends to the UI queue, and what it appends is data notifications followed by at most one completion; an abandoned loop posts no completion; a completion means I/O is not pending; when the UI thread refuses the first copy, the call returns at once with the session unchanged |
| Transport.CompleteRead | atom/browser/net/atom_url_request.cc:185 | an asynchronous read that finishes with bytes puts them at the front of the buffer, reports their count and sets the status back to `Success`; one that fails sets the failure status and reports a negative count; the script is untouched |
| AtomUrlRequest.OnAsyncReadCompleted | atom/browser/net/atom_url_request.cc:185-211 | when a pending read finishes, a failure or end of stream posts only completion; bytes are posted first, as a data notification carrying exactly them; a UI thread that refuses them leaves the queue unchanged and the loop abandoned |
| AtomUrlRequest.InitialRead | atom/browser/net/atom_url_request.cc:169-182 | a request that is not successful is not read and enters the loop with 0 bytes; a read that does not complete synchronously enters it with -1; otherwise the loop starts with the bytes of the first read |
| AtomUrlRequest.ReadResponse | atom/browser/net/atom_url_request.cc:169-182 | for a request that is not successful, the transport is left untouched and only a completion is posted |
| AtomUrlRequest.OnResponseStarted | atom/browser/net/atom_url_request.cc:150-167 | the response headers are captured exactly when the status is successful, and response-started is posted before anything else |
| AtomUrlRequest.NoRoomStaysClosed | atom/browser/net/atom_url_request.cc:213-224 | once the UI queue refuses tasks, the loop adds nothing to it |
| AtomUrlRequest.InformDelegate | atom/browser/net/atom_url_request.cc:227-260 | a notification reaches the delegate if the delegate is still alive when the task runs, and is dropped otherwise |
| AtomUrlRequest.Deliver | atom/browser/net/atom_url_request.cc:227-260 | the delegate never receives more notifications than were posted |
| AtomUrlRequest.DeliverIsPrefix | atom/browser/net/atom_url_request.cc:227-260 | once a dead delegate stays dead, the notifications it received are a prefix of those posted, in order and without gaps |
| AtomUrlRequest.AllGone | atom/browser/net/atom_url_request.cc:227-260 | a delegate gone before the first task receives nothing |
| UrlRequestStream.ReadLoopDeliversStream | atom/browser/net/atom_url_request.cc:185-224 | with an accepting UI thread, the loop posts the bytes already read, then one data notification per further chunk, each carrying exactly that chunk, then a completion unless I/O is pending |
| UrlRequestStream.BoundedReadLoopDeliversPrefix | atom/browser/net/atom_url_request.cc:185-224 | with room for only `k` more UI tasks, the loop posts exactly the first `k` notifications of the stream; it gives up exactly when the stream holds at least `k` chunks, and then keeps the status and leaves all but the first `k` script entries unread |
| UrlRequestStream.AsyncReadDeliversStream | atom/browser/net/atom_url_request.cc:185-224 | with an accepting UI thread, a pending read that finishes with bytes delivers them, then every further synchronous chunk, then completion unless I/O is pending again; finishing at end of stream or with a failure delivers only completion, with the matching status |
| UrlRequestStream.ResponseDeliversStream | atom/browser/net/atom_url_request.cc:150-224 | a whole response delivers response-started, then every synchronously delivered chunk in order, then completion; a failed request delivers only response-started and completion |
| UrlRequestStream.AtMostOneCompletion | atom/browser/net/atom_url_request.cc:185-224 | whatever the UI thread accepts, at most one completion is posted, and none when the loop gave up after a failed data post |
| UrlRequestStream.TwelveByteResponse | atom/browser/net/atom_url_request.cc:150-211 | a 12-byte body read in one go arrives as response-started, one data notification with those bytes, and completion |
| UrlRequestStream.FailedReadResponse | atom/browser/net/atom_url_request.cc:150-211 | a first read that fails yields response-started and completion, and the failure status |
| Ascii.LowerIdempotent | lib/browser/api/net.js:173-214 | lower-casing a header name twice equals lower-casing it once |
| Ascii.UpperIsCaseVariant | lib/browser/api/net.js:84 | the upper-cased method equals the original ignoring case |
| Ascii.DecimalRoundTrip | lib/browser/chrome-extension.js:16 | the decimal rendering of a key parses back to the key |
| Ascii.DecimalInjective | lib/browser/chrome-extension.js:16 | distinct keys render as distinct decimals |
| ClientRequest.ResolveMethod | lib/browser/api/net.js:84 | a falsy method defaults to GET; a truthy method that is not a string throws `TypeError`; otherwise the result has no lower-case letter and equals the given method ignoring case |
| ClientRequest.ResolveTargetWith | lib/browser/api/net.js:85-121 | a given URL is used as is; otherwise an unsupported protocol throws `Error` with the protocol in its message, and a path containing a space throws `TypeError`, and only these fail; host wins over hostname, port is kept only without host, hostname defaults to localhost and path to `/` |
| ClientRequest.DefaultProtocolRejected | lib/browser/api/net.js:89-91 | as written, options with neither URL nor protocol always throw "Protocol "http" not supported." |
| ClientRequest.IntendedDefaultProtocolAccepted | lib/browser/api/net.js:13-15 | with the default `http:` the same options resolve to an http URL for localhost |
| ClientRequest.SetHeader | lib/browser/api/net.js:173-187 | a non-string name throws `TypeError`, then an undefined value throws `Error`, then a started request throws `Error`, each with its own message; otherwise one native set-header call is recorded, and the value is stored under the lower-cased name in the JS-side copy, except under `__proto__`, where the plain object stores nothing |
| ClientRequest.GetHeader | lib/browser/api/net.js:189-200 | no argument throws `Error`; without a JS-side copy the result is undefined; a non-string name throws `TypeError`; otherwise the copy's own entry under the lower-cased name is returned, and a name without one reads what `Object.prototype` provides: `Object` for `constructor`, the prototype for `__proto__`, undefined for any other header name |
| ClientRequest.RemoveHeader | lib/browser/api/net.js:202-214 | no argument throws `Error`, then a started request throws `Error`, and only these or a non-string name or a missing copy fail; otherwise exactly the lower-cased name leaves the JS-side copy and one native remove call is recorded |
| ClientRequest.SetThenGetHeader | lib/browser/api/net.js:173-200 | a header set before start reads back under any capitalisation, except `__proto__`, which reads back as `Object.prototype` |
| ClientRequest.SetHeaderLeavesOthers | lib/browser/api/net.js:173-200 | setting a header leaves the reading of every other header unchanged |
| ClientRequest.RemoveThenGetHeader | lib/browser/api/net.js:189-214 | a removed header reads as what `Object.prototype` provides under its lower-cased name: undefined unless it is `constructor` or `__proto__`; removing a header that is not there changes no entry |
| ClientRequest.SetChunkedEncoding | lib/browser/api/net.js:162-171 | the setter throws `Error` once the native request has started; before that it sets the flag, which the getter then returns, and makes no native call |
| ClientRequest.WriteChunk | lib/browser/api/net.js:216-245 | a chunk that is neither a string nor a buffer throws `TypeError`; so does a string chunk with a non-empty string encoding that `Buffer.from` does not know, with its own message; otherwise exactly one native write of the chunk with the finish flag is recorded, followed by a chunked-upload call carrying the flag if the native request has started, the callback is deferred if given, and the native write's result is returned |
| ClientRequest.Write | lib/browser/api/net.js:247-255 | on a finished request, a "Write after end." error is scheduled and true is returned without touching the native request; otherwise a non-final chunk is written |
| ClientRequest.ShiftEndArgs | lib/browser/api/net.js:257-274 | a function (a user function or the built-in `Object`) as data becomes the callback, with null encoding and empty data; otherwise a function as encoding becomes the callback, with null encoding; otherwise encoding and callback are kept; falsy data becomes the empty string and truthy data is kept |
| ClientRequest.End | lib/browser/api/net.js:257-274 | on a finished request, `end` returns false and changes nothing; otherwise the shifted arguments are written as the final chunk |
| ClientRequest.NoWriteAfterFinish | lib/browser/api/net.js:247-274 | on a finished request, `write` returns true and only schedules the "Write after end." error, without touching the native request, and `end` returns false and changes nothing |
| ClientRequest.EndWithoutDataWritesEmptyLastChunk | lib/browser/api/net.js:257-274 | `end()` with no data sends an empty final chunk |
| ClientRequest.Abort | lib/browser/api/net.js:276-278 | `abort` records one native cancel and keeps the header copy and the started flag |
| ClientRequest.Create | lib/browser/api/net.js:75-160 | as written, a method error is passed on first, then URL resolution errors; with a valid method and URL, construction succeeds exactly when no header is given; a constructed request has made one native construct call with the resolved method, the URL and the session name, or `''` when none is given, keeps that session and the response callback, has an empty JS-side header copy, chunked encoding false and nothing deferred, and has neither started nor finished |
| ClientRequest.NoHeaderCopyMeansUnchanged | lib/browser/api/net.js:134-140 | without a JS-side header copy, applying headers succeeds only for an empty list, and then changes nothing |
| ClientRequest.ApplyHeaders | lib/browser/api/net.js:134-140 | applying a non-empty header list fails exactly when the request has started, there is no JS-side copy, or some value is undefined; otherwise it records one native set-header call per header, in order, and keeps the started flag |
| ClientRequest.CreateWithHeadersThrows | lib/browser/api/net.js:134-149 | as written, a constructor given any header throws: `Error` when the first value is undefined, `TypeError` otherwise |
| ClientRequest.CreateIntended | lib/browser/api/net.js:75-160 | with the copy created before the headers are applied, method and URL resolution errors are passed on, a valid method and URL fail exactly when some header value is undefined, and a constructed request has the resolved method and URL, the session name, or `''` when none is given, the response callback, a header copy and chunked encoding false; its native calls are the construct call with method, URL and session followed by one set-header call per given header, in order; it has neither started nor finished |
| ClientRequest.ApplyHeadersKeepsShape | lib/browser/api/net.js:134-140 | applying headers keeps the method, the URL, the native started and finished flags and the presence of the header copy |
| ClientRequest.ApplyHeadersThenGet | lib/browser/api/net.js:134-140 | after the headers are applied, each header reads back as the last value given for its case-insensitive name |
| ClientRequest.ApplyHeadersSnoc | lib/browser/api/net.js:134-140 | applying one more header equals applying it after the others |
| ClientRequest.CreateIntendedKeepsHeaders | lib/browser/api/net.js:134-149 | with the order fixed, every header given to the constructor reads back as the last value given for its name, except `__proto__` and undefined values, which read what `Object.prototype` provides |
| ChromeExtension.HostNameInjective | lib/browser/chrome-extension.js:15-19 | distinct keys give distinct host names |
| ChromeExtension.NextHostIsFresh | lib/browser/chrome-extension.js:15-19 | the next host name is not yet in the host map |
| ChromeExtension.GenerateHostForPath | lib/browser/chrome-extension.js:15-19 | the key counter goes up by one; the new host name `extension-N` maps to the directory; no existing entry changes |
| ChromeExtension.GetPathForHost | lib/browser/chrome-extension.js:21-23 | a host resolves to its directory exactly when it was allocated |
| ChromeExtension.AllocationsNeverReused | lib/browser/chrome-extension.js:12-19 | two allocations give two different host names, and the first still resolves to its directory |
| ChromeExtension.Lookup | lib/browser/chrome-extension.js:26-30 | the lookup of the cache's own entries finds the entry with that manifest name, and finds none exactly when no entry has that name |
| ChromeExtension.Delete | lib/browser/chrome-extension.js:170-172 | the entries left are exactly those whose name differs; a name not cached leaves the list as it was |
| ChromeExtension.DeleteSplices | lib/browser/chrome-extension.js:170-172 | with unique names, deleting the name held at position `i` splices that entry out and keeps the others in order |
| ChromeExtension.GetManifestFromPath | lib/browser/chrome-extension.js:28-47 | an unreadable manifest is an error; a name already cached, or one of the twelve names `Object.prototype` provides (so `manifestMap[name]` is truthy), returns nothing and changes nothing; a new name gets a fresh host, its start page and a cache entry at the end |
| ChromeExtension.SecondLoadIsCached | lib/browser/chrome-extension.js:28-47 | loading the same directory twice registers it only once |
| ChromeExtension.ScriptTagsAppend | lib/browser/chrome-extension.js:57-60 | the script tags of two lists concatenate |
| ChromeExtension.BackgroundHtmlTagsInOrder | lib/browser/chrome-extension.js:52-68 | the generated page contains one script tag per background script, in manifest order |
| ChromeExtension.StartBackgroundPages | lib/browser/chrome-extension.js:52-68 | a manifest with a background gets its generated page and URL, unless its host already has one; nothing else changes |
| ChromeExtension.StartBackgroundPagesIdempotent | lib/browser/chrome-extension.js:52-68 | starting background pages twice equals starting them once |
| ChromeExtension.StartAll | lib/browser/chrome-extension.js:82-90 | starting the pages of a list of manifests keeps every existing page, adds pages only for hosts of manifests with a background, and gives a new host the page of the first such manifest; the host map, key counter and cache are untouched |
| ChromeExtension.LoadDevToolsExtensions | lib/browser/chrome-extension.js:82-90 | a window without devtools gets nothing and nothing changes; otherwise every manifest's background page is started as `StartAll` states, and one extension description per manifest is sent, in order |
| ChromeExtension.OnDevToolsOpened | lib/browser/chrome-extension.js:174-181 | when devtools opens, the full description of every cached extension is sent, in cache order, and the registry is the one with the background pages of all cached manifests started |
| ChromeExtension.LoadIntoWindows | lib/browser/chrome-extension.js:164-166 | each window with devtools open is handed exactly this extension's description, the others nothing; the registry becomes the one with the manifest's background page started if any window has devtools open, and stays as it was otherwise |
| ChromeExtension.AddDevToolsExtension | lib/browser/chrome-extension.js:161-169 | an unreadable manifest is an error; the name is returned exactly when no manifest of that name was cached and the name is not one `Object.prototype` provides; the cache then gains exactly the new manifest at the end, with host `extension-(N+1)` mapped to this directory, the key counter goes up by one, the page generated from it is added when it has a background, some window has devtools open and its host has no page yet, and every window with devtools open is handed its description; otherwise nothing changes and nothing is sent |
| ChromeExtension.LookupLast | lib/browser/chrome-extension.js:30-32 | an entry appended under a new name is found by that name |
| ChromeExtension.RemoveDevToolsExtension | lib/browser/chrome-extension.js:170-172 | the name is no longer cached; the cache keeps exactly the other manifests, in their order, with the removed one spliced out, and is unchanged when the name was not cached; the host map, key counter and background pages are untouched |
| ChromeExtension.RemovedHostStillServed | lib/browser/chrome-extension.js:132-172 | after removal, the extension's host still answers every path other than the background page exactly as before: from its directory, or `FILE_NOT_FOUND` |
| ChromeExtension.DeleteKeepsUnique | lib/browser/chrome-extension.js:170-172 | deleting keeps the cached names unique |
| ChromeExtension.Route | lib/browser/chrome-extension.js:132-154 | no reply exactly when the hostname or path is missing, the host is not `extension-<digit>` or has no directory; otherwise the generated background page, the file's contents, or `FILE_NOT_FOUND` (-6) |
| ChromeExtension.AllocatedHostLooksLikeExtension | lib/browser/chrome-extension.js:132-136 | every allocated host name passes the handler's host test |
| ChromeExtension.RegisteredHostIsServed | lib/browser/chrome-extension.js:132-154 | any path other than the background page, requested under a host in the host map, is served from that host's directory or answered with `FILE_NOT_FOUND` |
| ChromeExtension.PersistOnQuit | lib/browser/chrome-extension.js:95-113 | quitting deletes the list exactly when nothing is cached; otherwise it writes the source directories in cache order |
| ChromeExtension.Preheat | lib/browser/chrome-extension.js:116-129 | preheating only appends to the cache, at most one entry per persisted directory, and leaves background pages alone; an unreadable first directory stops it with nothing loaded |
| ChromeExtension.Restore | lib/browser/chrome-extension.js:116-129 | a restored registry satisfies the registry invariant: allocated hosts, unique cached names, none of them an `Object.prototype` name, and every cached manifest's host routing to its directory |
| ChromeExtension.PreheatRestores | lib/browser/chrome-extension.js:116-129 | preheating the directories of a list of manifests with distinct names appends exactly those manifests |
| ChromeExtension.QuitThenRestoreRoundTrip | lib/browser/chrome-extension.js:95-129 | what `will-quit` writes, the next `ready` loads back: the same manifests from the same directories in the same order, provided the directories still hold them |

## Left out

- Thread affinity: the `DCHECK_CURRENTLY_ON` assertions, reference counting and `base::WeakPtr` mechanics. These are replaced by the two task queues and per-task alive flags.
- `AtomURLRequest::GetResponseHeaders`: it passes the transport's value straight through.
- The network behind `net::URLRequest`: connection handling, redirects, HTTP parsing and upload bodies. The transport is a script of read outcomes.
- AtomUrlRequest.GetHeaderAsWritten: does not model the case where `GetFullRequestHeaders` dereferences its null argument, because that crash depends on transport internals that are not modelled.
- The V8 bindings (`atom_api_url_request.h`, the callback converters), `IncomingMessage` and the `_emitRequestEvent`/`_emitResponseEvent` glue. The model records the notifications and the registered callback.
- ClientRequest.GetHeader: the `TypeError` raised for a non-string name is stated by class only, because its message depends on the value's type in the JavaScript engine. The same holds for ClientRequest.RemoveHeader.
- ClientRequest.ResolveMethod: the `TypeError` for a truthy method that is not a string is stated by class only, because its message comes from the JavaScript engine. The same holds for the `TypeError` of ClientRequest.CreateWithHeadersThrows.
- ChromeExtension.GenerateHostForPath: the key counter is an unbounded natural. In the source it is a JavaScript number: past 2^53 an increment no longer changes it, so a host name would be reused and its directory overwritten, and from 10^21 on the template literal renders it in exponent notation, which the decimal rendering here does not.
- AtomUrlRequest.Create: does not model GURL canonicalisation of the URL. The session takes whatever URL the created request carries, and the `DCHECK(!url.empty())` is its only precondition.
- ClientRequest.SetHeader: does not model that assigning an object or null to `__proto__` replaces the header copy's prototype. A `__proto__` header stores nothing in the model whatever its value.
- ClientRequest.SetThenGetHeader: reads a `__proto__` header back as `Object.prototype` even when the value set was an object or null, for the same reason.
- ClientRequest.ResolveTargetWith: the `url`, `protocol`, `host`, `hostname`, `port`, `path` and `session` options are taken as strings or absent; other JavaScript values there are not modelled.
- `url.parse` of a string argument to the `ClientRequest` constructor: only option objects are modelled.
- `url.format`: the formatted URL is kept as its parts.
- Unicode case mapping in `toUpperCase`/`toLowerCase`: only ASCII letters change case.
- `Buffer.from` encodings: a string chunk is recorded with its encoding, not converted to bytes. Only the rejection of an unknown encoding name is modelled.
- `process.nextTick`: callbacks are recorded as deferred entries in order, not run.
- The JavaScript rule that integer-like object keys are enumerated first. Header copies are maps, and the manifest cache is kept in insertion order.
- `fs`, `JSON.parse`/`JSON.stringify` and `webContents`:
  - Extension files and manifests are finite maps, and a read is a lookup.
  - A persisted file that is not a JSON array is not modelled.
  - Ignored write errors on quit are not modelled; only the write-or-delete decision is.
  - Background pages record their HTML and URL; the web contents are not created.
  - The `DevToolsAPI.addExtensions` script is recorded as the list of extension descriptions it carries.
- A manifest whose `background` has no `scripts` array: the source throws there, and the model takes the script list as given.
- The registration of the `chrome-extension:` scheme, and its error callback.

## Findings

| source | as written | input that shows it | evidently intended | confidence | as-written member | corrected member |
|---|---|---|---|---|---|---|
| atom/browser/net/atom_url_request.cc:84-87 | `request_headers` is a null pointer passed by value to `GetFullRequestHeaders`, so it is still null in the `&& request_headers` test and the fallback never reads anything | a header that is not an extra header but was sent by the transport: `GetHeader` returns "" | return the header the transport sent | medium, not executed | AtomUrlRequest.GetHeaderAsWritten, shown by AtomUrlRequest.GetHeaderAsWrittenLosesFallback | AtomUrlRequest.GetHeader |
| lib/browser/api/net.js:89-91 | the default protocol is `'http'`, but the supported set holds `'http:'` and `'https:'` | `net.request({})`: throws `Protocol "http" not supported.` | default to `'http:'` | high, not executed | ClientRequest.ResolveTarget, shown by ClientRequest.DefaultProtocolRejected | ClientRequest.ResolveTargetIntended, proved by ClientRequest.IntendedDefaultProtocolAccepted |
| lib/browser/api/net.js:134-149 | `options.headers` are applied with `setHeader` before `this._extra_headers = {}` runs, so the first `setHeader` assigns into `undefined`; even without the throw, line 149 would discard the copy | `net.request({headers: {'X-A': 'v'}})`: throws a `TypeError` (an undefined first value throws `Error` earlier) | create the header copy before applying the given headers | high, not executed | ClientRequest.Create, shown by ClientRequest.CreateWithHeadersThrows | ClientRequest.CreateIntended, proved by ClientRequest.CreateIntendedKeepsHeaders |

=== FILE: ascii.dfy ===
/** ASCII text helpers: the case folding used for header names and HTTP
    methods, and the decimal rendering used for extension host names. */
module Ascii {

  predicate IsUpper(c: char) { 'A' <= c <= 'Z' }

  predicate IsLower(c: char) { 'a' <= c <= 'z' }

  predicate IsDigit(c: char) { '0' <= c <= '9' }

  function LowerChar(c: char): char {
    if IsUpper(c) then (c as int + 32) as char else c
  }

  function UpperChar(c: char): char {
    if IsLower(c) then (c as int - 32) as char else c
  }

  /** `s.toLowerCase()` restricted to ASCII letters. */
  function Lower(s: string): (r: string)
    ensures |r| == |s|
    ensures forall i :: 0 <= i < |s| ==> r[i] == LowerChar(s[i])
  {
    if |s| == 0 then "" else [LowerChar(s[0])] + Lower(s[1..])
  }

  /** `s.toUpperCase()` restricted to ASCII letters. */
  function Upper(s: string): (r: string)
    ensures |r| == |s|
    ensures forall i :: 0 <= i < |s| ==> r[i] == UpperChar(s[i])
  {
    if |s| == 0 then "" else [UpperChar(s[0])] + Upper(s[1..])
  }

  /** Two names denote the same header when they agree up to ASCII case. */
  predicate SameIgnoringCase(a: string, b: string) {
    Lower(a) == Lower(b)
  }

  /** Folding is idempotent, so a folded key is its own key. */
  lemma LowerIdempotent(s: string)
    ensures Lower(Lower(s)) == Lower(s)
  {
  }

  /** Upper-casing leaves no lower-case ASCII letter and keeps the text
      equal to the input up to case. */
  lemma UpperIsCaseVariant(s: string)
    ensures forall i :: 0 <= i < |Upper(s)| ==> !IsLower(Upper(s)[i])
    ensures SameIgnoringCase(Upper(s), s)
  {
  }

  function DigitChar(d: nat): (c: char)
    requires d < 10
    ensures IsDigit(c)
  {
    ('0' as int + d) as char
  }

  function DigitValue(c: char): nat
    requires IsDigit(c)
  {
    c as int - '0' as int
  }

  /** The decimal numeral of `n`, as JavaScript renders a number in a
      template literal. */
  function Decimal(n: nat): (r: string)
    ensures |r| >= 1
    ensures forall i :: 0 <= i < |r| ==> IsDigit(r[i])
  {
    if n < 10 then [DigitChar(n)] else Decimal(n / 10) + [DigitChar(n % 10)]
  }

  /** Reads a string of digits back as a number. */
  function ParseDecimal(s: string): nat
    requires forall i :: 0 <= i < |s| ==> IsDigit(s[i])
  {
    if |s| == 0 then 0 else ParseDecimal(s[..|s| - 1]) * 10 + DigitValue(s[|s| - 1])
  }

  lemma {:induction false} DecimalRoundTrip(n: nat)
    ensures ParseDecimal(Decimal(n)) == n
  {
    if n >= 10 {
      var s := Decimal(n);
      assert s[..|s| - 1] == Decimal(n / 10);
      DecimalRoundTrip(n / 10);
    }
  }

  /** Distinct numbers have distinct numerals. */
  lemma DecimalInjective(a: nat, b: nat)
    requires a != b
    ensures Decimal(a) != Decimal(b)
  {
    DecimalRoundTrip(a);
    DecimalRoundTrip(b);
  }
}

=== FILE: atom_url_request.dfy ===
/** `atom::AtomURLRequest`: the native half of a `net.request`. Commands
    arrive on the UI thread and are posted to the IO thread; transport
    callbacks run on the IO thread and post notifications back to the UI
    thread, where they reach the JavaScript-facing delegate only while that
    delegate is still alive. Each `PostTask` appends to a FIFO log
    (`Queues`), so every operation is a pure step on a `Session`. */
module AtomUrlRequest {
  import opened Wrappers
  import opened Ascii
  import opened Queues
  import opened Transport

  /** `net::AuthChallengeInfo`, handed to the UI thread by value. */
  datatype Challenge = Challenge(isProxy: bool, scheme: string, realm: string)

  /** Tasks posted to the UI thread: the `InformDelegate*` methods. */
  datatype Notification =
    | AuthRequired(challenge: Challenge)
    | ResponseStarted
    | Data(bytes: seq<byte>)
    | Completed

  /** Tasks posted to the IO thread: `DoStart`, `DoSetAuth`, `DoCancelAuth`. */
  datatype Command = Start | SetAuth(username: string, password: string) | CancelAuth

  datatype Session = Session(
    request: Request,
    responseHeaders: Option<ResponseHeaders>,
    toIo: Queue<Command>,
    toUi: Queue<Notification>)

  /** How the read loop left `OnReadCompleted`: by falling out of the loop,
      or by the early return after a failed post of a data copy. */
  datatype Exit = Finished | Abandoned

  datatype LoopResult = LoopResult(session: Session, exit: Exit)

  // ---------------------------------------------------------------------
  // Construction and UI-thread commands

  /** `Create`: `created` is what the browser context's request context
      returns for `CreateRequest(GURL(url), DEFAULT_PRIORITY, ...)`, whose
      URL is the canonical form of `url`; the session then sets the method
      on it. */
  function Create(httpMethod: string, url: string, created: Request, ioRoom: Room, uiRoom: Room): (s: Session)
    requires url != ""
    requires forall i :: 0 <= i < |created.script| ==> ChunkFits(created.script[i])
    ensures Transport.Valid(s.request)
    ensures s.request.httpMethod == httpMethod && s.request.url == created.url && s.request.status == created.status
    ensures s.request.extraHeaders == created.extraHeaders && s.request.script == created.script
    ensures s.responseHeaders.None? && s.toIo.items == [] && s.toUi.items == []
  {
    Session(created.(httpMethod := httpMethod, buffer := FreshBuffer()), None, Empty(ioRoom), Empty(uiRoom))
  }

  /** The session's own `net::IOBuffer(kBufferSize)`, allocated by its
      constructor. Its first contents are never read; zeros stand in. */
  function FreshBuffer(): (b: seq<byte>)
    ensures |b| == BufferSize
  {
    seq(BufferSize, i => 0)
  }

  /** `End`: schedules the real transport start on the IO thread. */
  function End(s: Session): (r: Session)
    ensures r.request == s.request && r.toUi == s.toUi && r.responseHeaders == s.responseHeaders
    ensures s.toIo.Accepting() ==> r.toIo.items == s.toIo.items + [Start]
    ensures !s.toIo.Accepting() ==> r == s
  {
    s.(toIo := Post(s.toIo, Start).queue)
  }

  /** `Write`: has no effect in this revision. */
  function Write(s: Session): (r: Session)
    ensures r == s
  {
    s
  }

  /** `Abort`: has no effect in this revision; no cancellation is queued. */
  function Abort(s: Session): (r: Session)
    ensures r == s
  {
    s
  }

  /** `SetHeader`: `SetExtraRequestHeaderByName(name, value, true)`, which
      overwrites any header of the same name up to case. */
  function SetHeader(s: Session, name: string, value: string): (r: Session)
    ensures r.request.extraHeaders.Keys == s.request.extraHeaders.Keys + {Lower(name)}
    ensures r.request.extraHeaders[Lower(name)] == value
    ensures forall k :: k in s.request.extraHeaders && k != Lower(name) ==> r.request.extraHeaders[k] == s.request.extraHeaders[k]
    ensures r.request.fullHeaders == s.request.fullHeaders
  {
    s.(request := s.request.(extraHeaders := s.request.extraHeaders[Lower(name) := value]))
  }

  /** `RemoveHeader`: `RemoveRequestHeaderByName(name)`. */
  function RemoveHeader(s: Session, name: string): (r: Session)
    ensures r.request.extraHeaders.Keys == s.request.extraHeaders.Keys - {Lower(name)}
    ensures forall k :: k in r.request.extraHeaders ==> r.request.extraHeaders[k] == s.request.extraHeaders[k]
    ensures r.request.fullHeaders == s.request.fullHeaders
  {
    s.(request := s.request.(extraHeaders := s.request.extraHeaders - {Lower(name)}))
  }

  /** `GetHeader` as the code is evidently meant to behave: the extra
      header if one is set, else the header the transport actually sent if
      it can report them, else the empty string. */
  function GetHeader(s: Session, name: string): (r: string)
    ensures Lower(name) in s.request.extraHeaders ==> r == s.request.extraHeaders[Lower(name)]
    ensures Lower(name) !in s.request.extraHeaders && s.request.fullHeaders.Some? && Lower(name) in s.request.fullHeaders.value
            ==> r == s.request.fullHeaders.value[Lower(name)]
    ensures Lower(name) !in s.request.extraHeaders && (s.request.fullHeaders.None? || Lower(name) !in s.request.fullHeaders.value)
            ==> r == ""
  {
    var key := Lower(name);
    if key in s.request.extraHeaders then s.request.extraHeaders[key]
    else match s.request.fullHeaders
      case Some(full) => if key in full then full[key] else ""
      case None => ""
  }

  /** `GetHeader` as written: `request_headers` is a null pointer passed by
      value to `GetFullRequestHeaders`, so it is still null afterwards and
      the fallback branch never yields a value. */
  function GetHeaderAsWritten(s: Session, name: string): (r: string)
    ensures Lower(name) in s.request.extraHeaders ==> r == s.request.extraHeaders[Lower(name)]
    ensures Lower(name) !in s.request.extraHeaders ==> r == ""
  {
    var key := Lower(name);
    if key in s.request.extraHeaders then s.request.extraHeaders[key] else ""
  }

  /** The fallback is dead as written: a header the transport sent but that
      was never set as an extra header reads back empty. */
  lemma GetHeaderAsWrittenLosesFallback()
    ensures exists s: Session, name: string ::
      GetHeaderAsWritten(s, name) == "" && GetHeader(s, name) == "1"
  {
    var t := Request("GET", "http://example.test/", Success, [], [], ResponseHeaders(200, "OK", []),
                     map[], Some(map["x-sent" := "1"]), []);
    var s := Session(t, None, Empty(Unbounded), Empty(Unbounded));
    assert Lower("x-sent") == "x-sent";
    assert GetHeaderAsWritten(s, "x-sent") == "" && GetHeader(s, "x-sent") == "1";
  }

  /** The value last set is read back under any casing of its name, and an
      extra header shadows what the transport reports. */
  lemma SetThenGetHeader(s: Session, name: string, value: string, other: string)
    requires SameIgnoringCase(name, other)
    ensures GetHeader(SetHeader(s, name, value), other) == value
  {
  }

  /** Setting the same header twice leaves a single value. */
  lemma SetHeaderIdempotent(s: Session, name: string, value: string)
    ensures SetHeader(SetHeader(s, name, value), name, value) == SetHeader(s, name, value)
  {
  }

  /** Removing a header that is not set changes nothing. */
  lemma RemoveAbsentHeaderIsNoop(s: Session, name: string)
    requires Lower(name) !in s.request.extraHeaders
    ensures RemoveHeader(s, name) == s
  {
    assert s.request.extraHeaders - {Lower(name)} == s.request.extraHeaders;
  }

  /** After a removal, lookups under any casing fall back to the transport. */
  lemma RemoveThenGetHeader(s: Session, name: string, other: string)
    requires SameIgnoringCase(name, other)
    ensures GetHeader(RemoveHeader(s, name), other)
            == (if s.request.fullHeaders.Some? && Lower(name) in s.request.fullHeaders.value
                then s.request.fullHeaders.value[Lower(name)] else "")
  {
  }

  /** `PassLoginInformation`: partial credentials count as none, and the
      challenge is cancelled instead of answered. */
  function PassLoginInformation(s: Session, username: string, password: string): (r: Session)
    ensures r.request == s.request && r.toUi == s.toUi && r.responseHeaders == s.responseHeaders
    ensures Extends(s.toIo, r.toIo) && |Appended(s.toIo, r.toIo)| == (if s.toIo.Accepting() then 1 else 0)
    ensures (username == "" || password == "") ==> forall c :: c in Appended(s.toIo, r.toIo) ==> c == CancelAuth
    ensures (username != "" && password != "") ==> forall c :: c in Appended(s.toIo, r.toIo) ==> c == SetAuth(username, password)
  {
    var command := if username == "" || password == "" then CancelAuth else SetAuth(username, password);
    s.(toIo := Post(s.toIo, command).queue)
  }

  // ---------------------------------------------------------------------
  // IO thread

  /** Runs one task the UI thread posted: `DoStart`, `DoSetAuth` or
      `DoCancelAuth`, each a single call on the transport. */
  function RunIoCommand(s: Session, c: Command): (r: Session)
    ensures r.request.calls == s.request.calls + [
              match c
              case Start => StartCall
              case SetAuth(u, p) => SetAuthCall(u, p)
              case CancelAuth => CancelAuthCall]
    ensures r.toIo == s.toIo && r.toUi == s.toUi
  {
    var call := match c
      case Start => StartCall
      case SetAuth(u, p) => SetAuthCall(u, p)
      case CancelAuth => CancelAuthCall;
    s.(request := s.request.(calls := s.request.calls + [call]))
  }

  /** End to end, supplied credentials reach the transport only when both
      are non-empty, and otherwise the challenge is cancelled. */
  lemma CredentialsReachTransport(s: Session, username: string, password: string)
    requires s.toIo.Accepting()
    ensures var r := PassLoginInformation(s, username, password);
            var c := r.toIo.items[|s.toIo.items|];
            var done := RunIoCommand(r, c);
            done.request.calls[|s.request.calls|]
              == (if username == "" || password == "" then CancelAuthCall else SetAuthCall(username, password))
  {
    var r := PassLoginInformation(s, username, password);
    assert Appended(s.toIo, r.toIo) == [r.toIo.items[|s.toIo.items|]];
  }

  /** `OnAuthRequired`: forwards the challenge to the UI thread. */
  function OnAuthRequired(s: Session, challenge: Challenge): (r: Session)
    ensures r.request == s.request && r.toIo == s.toIo && r.responseHeaders == s.responseHeaders
    ensures s.toUi.Accepting() ==> r.toUi.items == s.toUi.items + [AuthRequired(challenge)]
    ensures !s.toUi.Accepting() ==> r.toUi == s.toUi
  {
    s.(toUi := Post(s.toUi, AuthRequired(challenge)).queue)
  }

  /** Notifications the read loop may append: data copies, each non-empty
      and at most one buffer long, and at most one `Completed`, last. */
  predicate DataThenCompletion(evs: seq<Notification>) {
    forall i :: 0 <= i < |evs| ==>
      || (evs[i].Data? && 0 < |evs[i].bytes| <= BufferSize)
      || (evs[i].Completed? && i == |evs| - 1)
  }

  lemma DataThenCompletionCons(d: Notification, rest: seq<Notification>)
    requires d.Data? && 0 < |d.bytes| <= BufferSize
    requires DataThenCompletion(rest)
    ensures DataThenCompletion([d] + rest)
  {
    var evs := [d] + rest;
    forall i | 0 <= i < |evs|
      ensures || (evs[i].Data? && 0 < |evs[i].bytes| <= BufferSize)
              || (evs[i].Completed? && i == |evs| - 1)
    {
      if i > 0 {
        assert evs[i] == rest[i - 1];
      }
    }
  }

  /** The deep copy `CopyAndPostBuffer` makes: exactly the first `n` bytes
      of the reusable buffer. */
  function CopyOut(buffer: seq<byte>, n: nat): (copy: seq<byte>)
    requires n <= |buffer|
    ensures |copy| == n
    ensures forall i :: 0 <= i < n ==> copy[i] == buffer[i]
  {
    buffer[..n]
  }

  /** Copying out what a read just put in the buffer returns exactly the
      bytes read, whatever stale bytes the buffer held. */
  lemma CopyOutRecoversRead(buffer: seq<byte>, data: seq<byte>)
    requires |data| <= |buffer|
    ensures CopyOut(Fill(buffer, data), |data|) == data
  {
  }

  datatype CopyResult = CopyResult(ok: bool, session: Session)

  /** `CopyAndPostBuffer`: posts an independent copy of the first `n` bytes;
      reports whether the post was accepted. */
  function CopyAndPostBuffer(s: Session, n: int): (r: CopyResult)
    requires Transport.Valid(s.request)
    requires 0 < n <= BufferSize
    ensures r.session.request == s.request && r.session.toIo == s.toIo && r.session.responseHeaders == s.responseHeaders
    ensures r.ok <==> s.toUi.Accepting()
    ensures r.ok ==> r.session.toUi.items == s.toUi.items + [Data(s.request.buffer[..n])]
    ensures !r.ok ==> r.session.toUi == s.toUi
  {
    var posted := Post(s.toUi, Data(CopyOut(s.request.buffer, n)));
    CopyResult(posted.ok, s.(toUi := posted.queue))
  }

  /** The tail of `OnReadCompleted`: `Completed` is posted unless the
      transport still has I/O pending. */
  function FinishLoop(s: Session): (r: LoopResult)
    ensures r.exit == Finished
    ensures r.session.request == s.request && r.session.toIo == s.toIo && r.session.responseHeaders == s.responseHeaders
    ensures Extends(s.toUi, r.session.toUi)
    ensures Appended(s.toUi, r.session.toUi) == (if !s.request.status.IoPending? && s.toUi.Accepting() then [Completed] else [])
    ensures s.toUi.room.Unbounded? ==> r.session.toUi.room.Unbounded?
  {
    if !s.request.status.IoPending? then
      LoopResult(s.(toUi := Post(s.toUi, Completed).queue), Finished)
    else
      LoopResult(s, Finished)
  }

  /** `OnReadCompleted`: the read loop. While the status is successful and
      the last read produced bytes, post a copy of them and read again
      synchronously; a failed post ends the call at once. */
  function OnReadCompleted(s: Session, bytesRead: int): (r: LoopResult)
    requires Transport.Valid(s.request)
    requires bytesRead <= BufferSize
    ensures Transport.Valid(r.session.request)
    ensures r.session.toIo == s.toIo && r.session.responseHeaders == s.responseHeaders
    ensures r.session.request.responseHeaders == s.request.responseHeaders
    ensures r.session.request.calls == s.request.calls
    ensures s.toUi.room.Unbounded? ==> r.session.toUi.room.Unbounded? && r.exit == Finished
    ensures Extends(s.toUi, r.session.toUi)
    ensures DataThenCompletion(Appended(s.toUi, r.session.toUi))
    ensures r.exit == Abandoned ==> Completed !in Appended(s.toUi, r.session.toUi)
    ensures Completed in Appended(s.toUi, r.session.toUi) ==> !r.session.request.status.IoPending?
    ensures IsSuccess(s.request.status) && 0 < bytesRead && !s.toUi.Accepting() ==> r == LoopResult(s, Abandoned)
    decreases |s.request.script|, if bytesRead > 0 then 1 else 0
  {
    if !IsSuccess(s.request.status) || bytesRead <= 0 then
      FinishLoop(s)
    else
      var posted := CopyAndPostBuffer(s, bytesRead);
      if !posted.ok then
        LoopResult(posted.session, Abandoned)
      else
        var next := Read(posted.session.request);
        var s' := posted.session.(request := next.request);
        var r := if next.completed then OnReadCompleted(s', next.bytesRead) else FinishLoop(s');
        DataThenCompletionCons(Data(s.request.buffer[..bytesRead]), Appended(s'.toUi, r.session.toUi));
        assert Appended(s.toUi, r.session.toUi) == [Data(s.request.buffer[..bytesRead])] + Appended(s'.toUi, r.session.toUi);
        r
  }

  /** `OnReadCompleted` as the transport calls it once a read that went
      asynchronous has finished: the loop resumes with what that read
      produced. */
  function OnAsyncReadCompleted(s: Session, o: ReadOutcome): (r: LoopResult)
    requires Transport.Valid(s.request) && s.request.status.IoPending?
    requires ChunkFits(o) && !o.Pending?
    ensures Transport.Valid(r.session.request) && r.session.request.calls == s.request.calls
    ensures r.session.toIo == s.toIo && r.session.responseHeaders == s.responseHeaders
    ensures Extends(s.toUi, r.session.toUi)
    ensures DataThenCompletion(Appended(s.toUi, r.session.toUi))
    ensures o.Fail? ==>
      && r.exit == Finished && r.session.request.status == Failed(o.error)
      && Appended(s.toUi, r.session.toUi) == (if s.toUi.Accepting() then [Completed] else [])
    ensures o == Bytes([]) ==>
      && r.exit == Finished && r.session.request.status == Success
      && Appended(s.toUi, r.session.toUi) == (if s.toUi.Accepting() then [Completed] else [])
    ensures o.Bytes? && |o.data| > 0 && s.toUi.Accepting() ==>
      |Appended(s.toUi, r.session.toUi)| > 0 && Appended(s.toUi, r.session.toUi)[0] == Data(o.data)
    ensures o.Bytes? && |o.data| > 0 && !s.toUi.Accepting() ==> r.exit == Abandoned && r.session.toUi == s.toUi
  {
    var done := CompleteRead(s.request, o);
    var resumed := s.(request := done.request);
    var r := OnReadCompleted(resumed, done.bytesRead);
    r
  }

  /** The first read `ReadResponse` makes, and the byte count it enters the
      loop with. */
  function InitialRead(t: Request): (r: ReadResult)
    requires Transport.Valid(t)
    ensures Transport.Valid(r.request) && r.bytesRead <= BufferSize
    ensures !IsSuccess(t.status) ==> r.request == t && r.bytesRead == 0
    ensures IsSuccess(t.status) && Read(t).completed ==> r.request == Read(t).request && r.bytesRead == Read(t).bytesRead
    ensures IsSuccess(t.status) && !Read(t).completed ==> r.request == Read(t).request && r.bytesRead == -1
    ensures r.bytesRead < 0 ==> !r.request.status.Success?
  {
    if IsSuccess(t.status) then
      var first := Read(t);
      if first.completed then first else first.(bytesRead := -1)
    else
      ReadResult(false, 0, t)
  }

  /** `ReadResponse`: a request whose status is not successful is not read
      from, and the loop it enters only reports completion. */
  function ReadResponse(s: Session): (r: LoopResult)
    requires Transport.Valid(s.request)
    ensures Transport.Valid(r.session.request)
    ensures Extends(s.toUi, r.session.toUi)
    ensures !IsSuccess(s.request.status) ==>
      && r.session.request == s.request
      && r.exit == Finished
      && Appended(s.toUi, r.session.toUi) == (if s.toUi.Accepting() then [Completed] else [])
  {
    var first := InitialRead(s.request);
    OnReadCompleted(s.(request := first.request), first.bytesRead)
  }

  /** `OnResponseStarted`: snapshot the response headers if the status is
      successful, post `ResponseStarted`, then run the read loop. */
  function OnResponseStarted(s: Session): (r: LoopResult)
    requires Transport.Valid(s.request)
    ensures Transport.Valid(r.session.request)
    ensures r.session.responseHeaders == (if IsSuccess(s.request.status) then Some(s.request.responseHeaders) else s.responseHeaders)
    ensures Extends(s.toUi, r.session.toUi)
    ensures s.toUi.Accepting() ==> |r.session.toUi.items| > |s.toUi.items| && r.session.toUi.items[|s.toUi.items|] == ResponseStarted
    ensures !s.toUi.Accepting() ==> r.session.toUi == s.toUi
  {
    var s1 := if IsSuccess(s.request.status) then s.(responseHeaders := Some(s.request.responseHeaders)) else s;
    var s2 := s1.(toUi := Post(s1.toUi, ResponseStarted).queue);
    var r := ReadResponse(s2);
    if !s.toUi.Accepting() then
      NoRoomStaysClosed(s2, r);
      r
    else
      assert r.session.toUi.items[..|s2.toUi.items|] == s2.toUi.items;
      r
  }

  /** A UI thread that has stopped accepting tasks receives none. */
  lemma NoRoomStaysClosed(s: Session, r: LoopResult)
    requires Transport.Valid(s.request)
    requires !s.toUi.Accepting()
    requires r == ReadResponse(s)
    ensures r.session.toUi == s.toUi
  {
    var first := InitialRead(s.request);
    NoRoomLoop(s.(request := first.request), first.bytesRead);
  }

  lemma NoRoomLoop(s: Session, bytesRead: int)
    requires Transport.Valid(s.request)
    requires bytesRead <= BufferSize
    requires !s.toUi.Accepting()
    ensures OnReadCompleted(s, bytesRead).session.toUi == s.toUi
  {
  }

  // ---------------------------------------------------------------------
  // UI thread: delivery to the delegate

  /** `InformDelegate*`: a posted notification reaches the delegate only if
      the weak pointer to it is still valid; otherwise it is dropped. */
  function InformDelegate(received: seq<Notification>, alive: bool, n: Notification): (r: seq<Notification>)
    ensures alive ==> r == received + [n]
    ensures !alive ==> r == received
  {
    if alive then received + [n] else received
  }

  /** Runs the posted UI tasks in order; `alive[i]` says whether the
      delegate still exists when task `i` runs. */
  function Deliver(tasks: seq<Notification>, alive: seq<bool>): (r: seq<Notification>)
    requires |alive| == |tasks|
    ensures |r| <= |tasks|
  {
    if |tasks| == 0 then [] else InformDelegate([], alive[0], tasks[0]) + Deliver(tasks[1..], alive[1..])
  }

  function CountAlive(alive: seq<bool>): nat {
    if |alive| == 0 then 0 else (if alive[0] then 1 else 0) + CountAlive(alive[1..])
  }

  /** A weak pointer, once invalidated, stays invalid. */
  predicate OnceGoneStaysGone(alive: seq<bool>) {
    forall i, j :: 0 <= i < j < |alive| && !alive[i] ==> !alive[j]
  }

  /** The delegate receives exactly the notifications posted before it went
      away, in posting order, and nothing after. */
  lemma {:induction false} DeliverIsPrefix(tasks: seq<Notification>, alive: seq<bool>)
    requires |alive| == |tasks|
    requires OnceGoneStaysGone(alive)
    ensures CountAlive(alive) <= |tasks|
    ensures Deliver(tasks, alive) == tasks[..CountAlive(alive)]
  {
    if |tasks| > 0 {
      assert OnceGoneStaysGone(alive[1..]) by {
        forall i, j | 0 <= i < j < |alive[1..]| && !alive[1..][i]
          ensures !alive[1..][j]
        {
          assert !alive[i + 1];
        }
      }
      DeliverIsPrefix(tasks[1..], alive[1..]);
      if alive[0] {
        assert tasks[..CountAlive(alive)] == [tasks[0]] + tasks[1..][..CountAlive(alive[1..])];
      } else {
        AllGone(alive);
      }
    }
  }

  lemma {:induction false} AllGone(alive: seq<bool>)
    requires |alive| > 0 && !alive[0]
    requires OnceGoneStaysGone(alive)
    ensures CountAlive(alive) == 0
  {
    if |alive| > 1 {
      assert !alive[1];
      assert OnceGoneStaysGone(alive[1..]) by {
        forall i, j | 0 <= i < j < |alive[1..]| && !alive[1..][i]
          ensures !alive[1..][j]
        {
          assert !alive[i + 1];
        }
      }
      AllGone(alive[1..]);
    }
  }
}

=== FILE: chrome_extension.dfy ===
/** The devtools-extension registry behind the `chrome-extension:` protocol:
    a counter-based allocator of `extension-N` host names, a cache of
    manifests keyed by extension name, a table of generated background
    pages (at most one per host), the request router, and the list of
    extension directories persisted across runs. Reading files is an
    oracle; windows are reduced to whether their devtools are open. */
module ChromeExtension {
  import opened Wrappers
  import opened Ascii

  /** The fields of `manifest.json` the registry uses; `background` holds
      the background script names when the manifest has a background. */
  datatype ManifestFile = ManifestFile(name: string, devtoolsPage: Option<string>, background: Option<seq<string>>)

  /** The object passed to `url.format` for a `chrome-extension:` URL. */
  datatype ExtensionUrl = ExtensionUrl(hostname: string, pathname: Option<string>)

  /** A cached manifest, with the fields the registry assigns to it. */
  datatype Manifest = Manifest(file: ManifestFile, srcDirectory: string, hostname: string, startPage: ExtensionUrl)

  datatype BackgroundPage = BackgroundPage(html: string, url: ExtensionUrl)

  /** `manifestMap` is a JavaScript object, whose keys keep insertion
      order; it is held as a list of manifests keyed by name. */
  datatype Registry = Registry(
    hostPathMap: map<string, string>,
    nextKey: nat,
    manifests: seq<Manifest>,
    backgroundPages: map<string, BackgroundPage>)

  const Initial: Registry := Registry(map[], 0, [], map[])

  /** What reading files returns: parsed manifests by extension directory,
      and file contents by (directory, request path). A missing entry is a
      read that throws. */
  datatype Files = Files(manifests: map<string, ManifestFile>, contents: map<(string, string), string>)

  datatype ReadError = ManifestUnreadable(srcDirectory: string)

  // ---------------------------------------------------------------------
  // Host names

  const HostPrefix: string := "extension-"

  function HostName(n: nat): string {
    HostPrefix + Decimal(n)
  }

  /** Every mapped host name was handed out by the counter. */
  ghost predicate HostsAllocated(reg: Registry) {
    forall h :: h in reg.hostPathMap ==> exists n :: 1 <= n <= reg.nextKey && h == HostName(n)
  }

  lemma HostNameInjective(a: nat, b: nat)
    requires HostName(a) == HostName(b)
    ensures a == b
  {
    assert Decimal(a) == HostName(a)[|HostPrefix|..];
    assert Decimal(b) == HostName(b)[|HostPrefix|..];
    if a != b {
      DecimalInjective(a, b);
    }
  }

  /** The next host name is not in use. */
  lemma NextHostIsFresh(reg: Registry)
    requires HostsAllocated(reg)
    ensures HostName(reg.nextKey + 1) !in reg.hostPathMap
  {
    if HostName(reg.nextKey + 1) in reg.hostPathMap {
      var n :| 1 <= n <= reg.nextKey && HostName(reg.nextKey + 1) == HostName(n);
      HostNameInjective(reg.nextKey + 1, n);
    }
  }

  datatype Allocated = Allocated(registry: Registry, host: string)

  /** `generateHostForPath`: the next `extension-N`, mapped to `path`. */
  function GenerateHostForPath(reg: Registry, path: string): (r: Allocated)
    requires HostsAllocated(reg)
    ensures HostsAllocated(r.registry)
    ensures r.registry.nextKey == reg.nextKey + 1 && r.host == HostName(r.registry.nextKey)
    ensures r.host !in reg.hostPathMap
    ensures r.registry.hostPathMap == reg.hostPathMap[r.host := path]
    ensures r.registry.manifests == reg.manifests && r.registry.backgroundPages == reg.backgroundPages
  {
    NextHostIsFresh(reg);
    var key := HostName(reg.nextKey + 1);
    var reg' := reg.(hostPathMap := reg.hostPathMap[key := path], nextKey := reg.nextKey + 1);
    assert HostsAllocated(reg') by {
      forall h | h in reg'.hostPathMap
        ensures exists n :: 1 <= n <= reg'.nextKey && h == HostName(n)
      {
        if h != key {
          var n :| 1 <= n <= reg.nextKey && h == HostName(n);
        } else {
          assert h == HostName(reg'.nextKey);
        }
      }
    }
    Allocated(reg', key)
  }

  /** `getPathForHost`. */
  function GetPathForHost(reg: Registry, host: string): (r: Option<string>)
    ensures r.Some? <==> host in reg.hostPathMap
    ensures r.Some? ==> r.value == reg.hostPathMap[host]
  {
    if host in reg.hostPathMap then Some(reg.hostPathMap[host]) else None
  }

  /** Successive allocations never hand out the same host twice, and each
      keeps pointing at its own directory. */
  lemma AllocationsNeverReused(reg: Registry, first: string, second: string)
    requires HostsAllocated(reg)
    ensures var a := GenerateHostForPath(reg, first);
            var b := GenerateHostForPath(a.registry, second);
            && a.host != b.host
            && GetPathForHost(b.registry, a.host) == Some(first)
            && GetPathForHost(b.registry, b.host) == Some(second)
  {
  }

  // ---------------------------------------------------------------------
  // Manifest cache

  /** `manifestMap[name]`. */
  function Lookup(manifests: seq<Manifest>, name: string): (r: Option<Manifest>)
    ensures r.None? <==> forall i :: 0 <= i < |manifests| ==> manifests[i].file.name != name
    ensures r.Some? ==> r.value in manifests && r.value.file.name == name
  {
    if |manifests| == 0 then None
    else if manifests[0].file.name == name then Some(manifests[0])
    else Lookup(manifests[1..], name)
  }

  /** `delete manifestMap[name]`. */
  function Delete(manifests: seq<Manifest>, name: string): (r: seq<Manifest>)
    ensures forall m :: m in r <==> m in manifests && m.file.name != name
    ensures |r| <= |manifests|
    ensures (forall i :: 0 <= i < |manifests| ==> manifests[i].file.name != name) ==> r == manifests
  {
    if |manifests| == 0 then []
    else if manifests[0].file.name == name then Delete(manifests[1..], name)
    else [manifests[0]] + Delete(manifests[1..], name)
  }

  /** With unique names, deleting splices the one entry of that name out
      and keeps every other entry in its place. */
  lemma {:induction false} DeleteSplices(manifests: seq<Manifest>, name: string, i: nat)
    requires UniqueNames(manifests)
    requires i < |manifests| && manifests[i].file.name == name
    ensures Delete(manifests, name) == manifests[..i] + manifests[i + 1..]
    decreases i
  {
    var rest := manifests[1..];
    UniqueTail(manifests);
    if i == 0 {
      assert forall k :: 0 <= k < |rest| ==> rest[k].file.name != name by {
        forall k | 0 <= k < |rest| ensures rest[k].file.name != name {
          assert rest[k] == manifests[k + 1];
        }
      }
    } else {
      assert rest[i - 1] == manifests[i];
      DeleteSplices(rest, name, i - 1);
      SpliceCons(manifests, i);
    }
  }

  /** Every splice point at once. */
  lemma DeleteSplicesAll(manifests: seq<Manifest>, name: string)
    requires UniqueNames(manifests)
    ensures forall i :: 0 <= i < |manifests| && manifests[i].file.name == name ==>
      Delete(manifests, name) == manifests[..i] + manifests[i + 1..]
  {
    forall i | 0 <= i < |manifests| && manifests[i].file.name == name
      ensures Delete(manifests, name) == manifests[..i] + manifests[i + 1..]
    {
      DeleteSplices(manifests, name, i);
    }
  }

  lemma SpliceCons<T>(s: seq<T>, i: nat)
    requires 0 < i < |s|
    ensures s[..i] + s[i + 1..] == [s[0]] + (s[1..][..i - 1] + s[1..][i..])
  {
    assert s[..i] == [s[0]] + s[1..][..i - 1];
    assert s[i + 1..] == s[1..][i..];
  }

  lemma UniqueTail(manifests: seq<Manifest>)
    requires |manifests| > 0
    ensures UniqueNames(manifests) ==> UniqueNames(manifests[1..])
    ensures UniqueNames(manifests) ==> forall i :: 0 < i < |manifests| ==> manifests[i].file.name != manifests[0].file.name
  {
    if UniqueNames(manifests) {
      var rest := manifests[1..];
      forall i, j | 0 <= i < j < |rest| ensures rest[i].file.name != rest[j].file.name {
        assert rest[i] == manifests[i + 1] && rest[j] == manifests[j + 1];
      }
    }
  }

  predicate UniqueNames(manifests: seq<Manifest>) {
    forall i, j :: 0 <= i < j < |manifests| ==> manifests[i].file.name != manifests[j].file.name
  }

  /** The properties every plain `{}` inherits from `Object.prototype`. */
  const ObjectPrototypeNames: set<string> := {
    "constructor", "hasOwnProperty", "isPrototypeOf", "propertyIsEnumerable", "toLocaleString",
    "toString", "valueOf", "__defineGetter__", "__defineSetter__", "__lookupGetter__",
    "__lookupSetter__", "__proto__"}

  /** `manifestMap[name]` is truthy: a manifest of that name is cached, or
      the name reaches a function (or the prototype) inherited by the map. */
  predicate Cached(manifests: seq<Manifest>, name: string) {
    Lookup(manifests, name).Some? || name in ObjectPrototypeNames
  }

  /** Every cached manifest's host routes to its own directory. */
  predicate HostsRoute(reg: Registry) {
    forall i :: 0 <= i < |reg.manifests| ==>
      reg.manifests[i].hostname in reg.hostPathMap && reg.hostPathMap[reg.manifests[i].hostname] == reg.manifests[i].srcDirectory
  }

  /** The cache invariant: hosts come from the counter, names are unique
      and none is inherited, and every cached manifest's host maps to its
      directory. */
  ghost predicate Valid(reg: Registry) {
    && HostsAllocated(reg)
    && UniqueNames(reg.manifests)
    && (forall i :: 0 <= i < |reg.manifests| ==> reg.manifests[i].file.name !in ObjectPrototypeNames)
    && HostsRoute(reg)
  }

  datatype Loaded = Loaded(registry: Registry, manifest: Option<Manifest>)

  /** `getManifestFromPath`: reads and parses the manifest (an exception if
      it cannot), and registers it unless `manifestMap` already answers to
      its name, in which case it returns `undefined` and allocates nothing. */
  function GetManifestFromPath(reg: Registry, files: Files, srcDirectory: string): (r: Result<Loaded, ReadError>)
    requires Valid(reg)
    ensures r.Err? <==> srcDirectory !in files.manifests
    ensures r.Ok? ==> Valid(r.value.registry) && r.value.registry.backgroundPages == reg.backgroundPages
    ensures r.Ok? && Cached(reg.manifests, files.manifests[srcDirectory].name)
            ==> r.value.manifest.None? && r.value.registry == reg
    ensures r.Ok? && !Cached(reg.manifests, files.manifests[srcDirectory].name) ==>
      && r.value.manifest.Some?
      && var m := r.value.manifest.value;
      && m.file == files.manifests[srcDirectory]
      && m.srcDirectory == srcDirectory
      && m.hostname == HostName(reg.nextKey + 1)
      && m.hostname !in reg.hostPathMap
      && m.startPage == ExtensionUrl(m.hostname, m.file.devtoolsPage)
      && r.value.registry.nextKey == reg.nextKey + 1
      && r.value.registry.hostPathMap == reg.hostPathMap[m.hostname := srcDirectory]
      && r.value.registry.manifests == reg.manifests + [m]
  {
    if srcDirectory !in files.manifests then Err(ManifestUnreadable(srcDirectory))
    else
      var file := files.manifests[srcDirectory];
      if Cached(reg.manifests, file.name) then Ok(Loaded(reg, None))
      else
        var grant := GenerateHostForPath(reg, srcDirectory);
        var m := Manifest(file, srcDirectory, grant.host, ExtensionUrl(grant.host, file.devtoolsPage));
        var reg' := grant.registry.(manifests := grant.registry.manifests + [m]);
        assert UniqueNames(reg'.manifests) by {
          forall i, j | 0 <= i < j < |reg'.manifests|
            ensures reg'.manifests[i].file.name != reg'.manifests[j].file.name
          {
            if j == |reg.manifests| {
              assert reg'.manifests[i] == reg.manifests[i];
            }
          }
        }
        Ok(Loaded(reg', Some(m)))
  }

  /** Loading the same extension directory twice registers it once. */
  lemma SecondLoadIsCached(reg: Registry, files: Files, srcDirectory: string)
    requires Valid(reg)
    requires srcDirectory in files.manifests
    ensures var first := GetManifestFromPath(reg, files, srcDirectory);
            var second := GetManifestFromPath(first.value.registry, files, srcDirectory);
            && second.Ok?
            && second.value.manifest.None?
            && second.value.registry == first.value.registry
  {
    var first := GetManifestFromPath(reg, files, srcDirectory);
    var name := files.manifests[srcDirectory].name;
    if !Cached(reg.manifests, name) {
      var m := first.value.manifest.value;
      assert first.value.registry.manifests[|reg.manifests|] == m;
    }
  }

  // ---------------------------------------------------------------------
  // Background pages

  const BackgroundPagePath: string := "/_generated_background_page.html"

  function ScriptTag(name: string): string {
    "<script src=\"" + name + "\"></script>"
  }

  /** `scripts.map(...).join('')`. */
  function ScriptTags(scripts: seq<string>): string {
    if |scripts| == 0 then "" else ScriptTag(scripts[0]) + ScriptTags(scripts[1..])
  }

  function BackgroundHtml(scripts: seq<string>): string {
    "<html><body>" + ScriptTags(scripts) + "</body></html>"
  }

  lemma {:induction false} ScriptTagsAppend(a: seq<string>, b: seq<string>)
    ensures ScriptTags(a + b) == ScriptTags(a) + ScriptTags(b)
    decreases |a|
  {
    if |a| > 0 {
      assert (a + b)[0] == a[0];
      assert (a + b)[1..] == a[1..] + b;
      ScriptTagsAppend(a[1..], b);
      calc {
        ScriptTags(a + b);
        ScriptTag(a[0]) + ScriptTags(a[1..] + b);
        ScriptTag(a[0]) + (ScriptTags(a[1..]) + ScriptTags(b));
        (ScriptTag(a[0]) + ScriptTags(a[1..])) + ScriptTags(b);
      }
    } else {
      assert a + b == b;
    }
  }

  /** Where the tag of script `i` starts in the generated page. */
  function TagOffset(scripts: seq<string>, i: nat): nat
    requires i <= |scripts|
  {
    |"<html><body>"| + |ScriptTags(scripts[..i])|
  }

  /** The generated page holds one tag per script, in script order: the
      tag of script `i` sits at its offset, and each tag starts after the
      previous one ends. */
  lemma BackgroundHtmlTagsInOrder(scripts: seq<string>, i: nat)
    requires i < |scripts|
    ensures var html := BackgroundHtml(scripts);
            var at := TagOffset(scripts, i);
            && at + |ScriptTag(scripts[i])| <= |html|
            && html[at..at + |ScriptTag(scripts[i])|] == ScriptTag(scripts[i])
            && TagOffset(scripts, i + 1) == at + |ScriptTag(scripts[i])|
  {
    assert scripts == scripts[..i] + [scripts[i]] + scripts[i + 1..];
    ScriptTagsAppend(scripts[..i] + [scripts[i]], scripts[i + 1..]);
    ScriptTagsAppend(scripts[..i], [scripts[i]]);
    assert scripts[..i + 1] == scripts[..i] + [scripts[i]];
    assert ScriptTags([scripts[i]]) == ScriptTag(scripts[i]);
    var html := BackgroundHtml(scripts);
    var pre := "<html><body>" + ScriptTags(scripts[..i]);
    assert html == pre + ScriptTag(scripts[i]) + (ScriptTags(scripts[i + 1..]) + "</body></html>");
  }

  /** The page generated for a manifest with a background, and the URL its
      web contents load. */
  function PageFor(m: Manifest): BackgroundPage
    requires m.file.background.Some?
  {
    BackgroundPage(BackgroundHtml(m.file.background.value), ExtensionUrl(m.hostname, Some(BackgroundPagePath[1..])))
  }

  /** `m` has a background page to start, under host `h`. */
  predicate StartsPage(m: Manifest, h: string) {
    m.file.background.Some? && m.hostname == h
  }

  /** `startBackgroundPages`: generates the page of a manifest with a
      background, once per host. */
  function StartBackgroundPages(reg: Registry, m: Manifest): (r: Registry)
    ensures r.hostPathMap == reg.hostPathMap && r.nextKey == reg.nextKey && r.manifests == reg.manifests
    ensures m.hostname in reg.backgroundPages || m.file.background.None? ==> r == reg
    ensures m.hostname !in reg.backgroundPages && m.file.background.Some? ==>
      r.backgroundPages == reg.backgroundPages[m.hostname := PageFor(m)]
  {
    if m.hostname in reg.backgroundPages || m.file.background.None? then reg
    else reg.(backgroundPages := reg.backgroundPages[m.hostname := PageFor(m)])
  }

  /** Starting a host's background page again changes nothing. */
  lemma StartBackgroundPagesIdempotent(reg: Registry, m: Manifest)
    ensures StartBackgroundPages(StartBackgroundPages(reg, m), m) == StartBackgroundPages(reg, m)
  {
  }

  /** What `DevToolsAPI.addExtensions` is given for one manifest. */
  datatype ExtensionInfo = ExtensionInfo(startPage: ExtensionUrl, srcDirectory: string, name: string, exposeExperimentalApis: bool)

  function ToExtensionInfo(m: Manifest): ExtensionInfo {
    ExtensionInfo(m.startPage, m.srcDirectory, m.file.name, true)
  }

  /** What starting the pages of `manifests` does to the page table:
      existing pages are kept, a host gains a page exactly when some
      manifest with a background names it, and that page is the one of the
      first such manifest. */
  ghost predicate PagesStarted(before: map<string, BackgroundPage>, manifests: seq<Manifest>, after: map<string, BackgroundPage>) {
    && (forall h :: h in before ==> h in after && after[h] == before[h])
    && (forall h :: h in after <==> h in before || exists i :: 0 <= i < |manifests| && StartsPage(manifests[i], h))
    && (forall i :: 0 <= i < |manifests| && manifests[i].file.background.Some?
                    && manifests[i].hostname !in before
                    && (forall j :: 0 <= j < i ==> !StartsPage(manifests[j], manifests[i].hostname))
                    ==> manifests[i].hostname in after && after[manifests[i].hostname] == PageFor(manifests[i]))
  }

  /** `startBackgroundPages` for each manifest in turn. */
  function StartAll(reg: Registry, manifests: seq<Manifest>): (r: Registry)
    ensures r.hostPathMap == reg.hostPathMap && r.nextKey == reg.nextKey && r.manifests == reg.manifests
    ensures PagesStarted(reg.backgroundPages, manifests, r.backgroundPages)
    decreases |manifests|
  {
    if |manifests| == 0 then reg
    else
      var next := StartBackgroundPages(reg, manifests[0]);
      var r := StartAll(next, manifests[1..]);
      PagesStartedCons(reg, manifests, next.backgroundPages, r.backgroundPages);
      r
  }

  lemma PagesStartedCons(reg: Registry, manifests: seq<Manifest>, next: map<string, BackgroundPage>, after: map<string, BackgroundPage>)
    requires |manifests| > 0
    requires next == StartBackgroundPages(reg, manifests[0]).backgroundPages
    requires PagesStarted(next, manifests[1..], after)
    ensures PagesStarted(reg.backgroundPages, manifests, after)
  {
    PagesStartedDomain(reg, manifests, next, after);
    PagesStartedFirst(reg, manifests, next, after);
  }

  lemma PagesStartedDomain(reg: Registry, manifests: seq<Manifest>, next: map<string, BackgroundPage>, after: map<string, BackgroundPage>)
    requires |manifests| > 0
    requires next == StartBackgroundPages(reg, manifests[0]).backgroundPages
    requires PagesStarted(next, manifests[1..], after)
    ensures forall h :: h in after <==> h in reg.backgroundPages || exists i :: 0 <= i < |manifests| && StartsPage(manifests[i], h)
  {
    var before := reg.backgroundPages;
    var rest := manifests[1..];
    forall h ensures h in after <==> h in before || exists i :: 0 <= i < |manifests| && StartsPage(manifests[i], h) {
      if exists i :: 0 <= i < |manifests| && StartsPage(manifests[i], h) {
        var i :| 0 <= i < |manifests| && StartsPage(manifests[i], h);
        if i > 0 {
          assert StartsPage(rest[i - 1], h);
        }
      }
      if exists i :: 0 <= i < |rest| && StartsPage(rest[i], h) {
        var i :| 0 <= i < |rest| && StartsPage(rest[i], h);
        assert StartsPage(manifests[i + 1], h);
      }
    }
  }

  lemma PagesStartedFirst(reg: Registry, manifests: seq<Manifest>, next: map<string, BackgroundPage>, after: map<string, BackgroundPage>)
    requires |manifests| > 0
    requires next == StartBackgroundPages(reg, manifests[0]).backgroundPages
    requires PagesStarted(next, manifests[1..], after)
    ensures forall i :: 0 <= i < |manifests| && manifests[i].file.background.Some?
                    && manifests[i].hostname !in reg.backgroundPages
                    && (forall j :: 0 <= j < i ==> !StartsPage(manifests[j], manifests[i].hostname))
                    ==> manifests[i].hostname in after && after[manifests[i].hostname] == PageFor(manifests[i])
  {
    var before := reg.backgroundPages;
    var m := manifests[0];
    var rest := manifests[1..];
    forall i | 0 <= i < |manifests| && manifests[i].file.background.Some?
               && manifests[i].hostname !in before
               && (forall j :: 0 <= j < i ==> !StartsPage(manifests[j], manifests[i].hostname))
      ensures manifests[i].hostname in after && after[manifests[i].hostname] == PageFor(manifests[i])
    {
      if i > 0 {
        assert manifests[i] == rest[i - 1];
        assert !StartsPage(m, manifests[i].hostname);
        forall j | 0 <= j < i - 1 ensures !StartsPage(rest[j], rest[i - 1].hostname) {
          assert rest[j] == manifests[j + 1];
        }
      }
    }
  }

  datatype WindowLoad = WindowLoad(registry: Registry, sent: Option<seq<ExtensionInfo>>)

  /** `loadDevToolsExtensions`: nothing for a window without devtools;
      otherwise start the background pages and hand the extensions over. */
  function LoadDevToolsExtensions(reg: Registry, hasDevTools: bool, manifests: seq<Manifest>): (r: WindowLoad)
    ensures !hasDevTools ==> r == WindowLoad(reg, None)
    ensures hasDevTools ==> r.sent.Some? && |r.sent.value| == |manifests|
    ensures hasDevTools ==> forall i :: 0 <= i < |manifests| ==> r.sent.value[i] == ToExtensionInfo(manifests[i])
    ensures hasDevTools ==> r.registry == StartAll(reg, manifests)
  {
    if !hasDevTools then WindowLoad(reg, None)
    else WindowLoad(StartAll(reg, manifests), Some(seq(|manifests|, i requires 0 <= i < |manifests| => ToExtensionInfo(manifests[i]))))
  }

  /** The `devtools-opened` hook of every window: all cached extensions are
      loaded into the devtools that just opened. */
  function OnDevToolsOpened(reg: Registry): (r: WindowLoad)
    ensures r.registry == StartAll(reg, reg.manifests)
    ensures r.registry.manifests == reg.manifests && r.registry.hostPathMap == reg.hostPathMap
    ensures r.sent.Some? && |r.sent.value| == |reg.manifests|
    ensures forall i :: 0 <= i < |reg.manifests| ==> r.sent.value[i] == ToExtensionInfo(reg.manifests[i])
  {
    LoadDevToolsExtensions(reg, true, reg.manifests)
  }

  // ---------------------------------------------------------------------
  // BrowserWindow.addDevToolsExtension / removeDevToolsExtension

  /** What `addDevToolsExtension` leaves behind: the registry, the name it
      returns, and for each open window what its devtools were handed
      (`None` when nothing was sent to it). */
  datatype Added = Added(registry: Registry, name: Option<string>, sent: seq<Option<seq<ExtensionInfo>>>)

  datatype Broadcast = Broadcast(registry: Registry, sent: seq<Option<seq<ExtensionInfo>>>)

  /** `loadDevToolsExtensions(win, [manifest])` for every window in turn:
      each window with devtools open is handed exactly this extension, and
      the manifest's background page is started once if any window has
      devtools open. */
  function LoadIntoWindows(reg: Registry, windows: seq<bool>, m: Manifest): (r: Broadcast)
    ensures r.registry == (if exists i :: 0 <= i < |windows| && windows[i] then StartBackgroundPages(reg, m) else reg)
    ensures |r.sent| == |windows|
    ensures forall i :: 0 <= i < |windows| ==> r.sent[i] == (if windows[i] then Some([ToExtensionInfo(m)]) else None)
    decreases |windows|
  {
    if |windows| == 0 then Broadcast(reg, [])
    else
      var first := LoadDevToolsExtensions(reg, windows[0], [m]);
      var rest := LoadIntoWindows(first.registry, windows[1..], m);
      assert first.registry == (if windows[0] then StartBackgroundPages(reg, m) else reg);
      assert windows[0] ==> first.sent.value == [ToExtensionInfo(m)];
      StartBackgroundPagesIdempotent(reg, m);
      assert (exists i :: 0 <= i < |windows| && windows[i])
             <==> windows[0] || exists i :: 0 <= i < |windows[1..]| && windows[1..][i];
      Broadcast(rest.registry, [first.sent] + rest.sent)
  }

  /** `addDevToolsExtension(srcDirectory)`; `windows` says, for each open
      window, whether its devtools are open. The extension's name comes back
      only when the manifest is newly registered, and only then is anything
      sent to the windows. */
  function AddDevToolsExtension(reg: Registry, files: Files, windows: seq<bool>, srcDirectory: string): (r: Result<Added, ReadError>)
    requires Valid(reg)
    ensures r.Err? <==> srcDirectory !in files.manifests
    ensures r.Ok? ==> Valid(r.value.registry) && |r.value.sent| == |windows|
    ensures r.Ok? ==> (r.value.name.Some? <==> !Cached(reg.manifests, files.manifests[srcDirectory].name))
    ensures r.Ok? && r.value.name.Some? ==>
      && r.value.name.value == files.manifests[srcDirectory].name
      && Lookup(r.value.registry.manifests, r.value.name.value).Some?
      && Lookup(r.value.registry.manifests, r.value.name.value).value.srcDirectory == srcDirectory
    ensures r.Ok? && r.value.name.Some? ==>
      var file := files.manifests[srcDirectory];
      var host := HostName(reg.nextKey + 1);
      var m := Manifest(file, srcDirectory, host, ExtensionUrl(host, file.devtoolsPage));
      && r.value.registry.manifests == reg.manifests + [m]
      && r.value.registry.hostPathMap == reg.hostPathMap[host := srcDirectory]
      && r.value.registry.nextKey == reg.nextKey + 1
      && r.value.registry.backgroundPages
           == (if (exists i :: 0 <= i < |windows| && windows[i]) && file.background.Some? && host !in reg.backgroundPages
               then reg.backgroundPages[host := PageFor(m)] else reg.backgroundPages)
      && (forall i :: 0 <= i < |windows| ==> r.value.sent[i] == (if windows[i] then Some([ToExtensionInfo(m)]) else None))
    ensures r.Ok? && r.value.name.None? ==>
      r.value.registry == reg && forall i :: 0 <= i < |windows| ==> r.value.sent[i].None?
  {
    match GetManifestFromPath(reg, files, srcDirectory)
    case Err(e) => Err(e)
    case Ok(loaded) =>
      match loaded.manifest
      case None => Ok(Added(loaded.registry, None, seq(|windows|, _ => None)))
      case Some(m) =>
        LookupLast(reg.manifests, m);
        var b := LoadIntoWindows(loaded.registry, windows, m);
        Ok(Added(b.registry, Some(m.file.name), b.sent))
  }

  lemma LookupLast(manifests: seq<Manifest>, m: Manifest)
    requires Lookup(manifests, m.file.name).None?
    ensures Lookup(manifests + [m], m.file.name) == Some(m)
  {
    if |manifests| > 0 {
      assert (manifests + [m])[1..] == manifests[1..] + [m];
      LookupLast(manifests[1..], m);
    }
  }

  /** `removeDevToolsExtension(name)`: forgets the manifest of that name
      only; its host keeps routing to the extension directory. */
  function RemoveDevToolsExtension(reg: Registry, name: string): (r: Registry)
    requires Valid(reg)
    ensures Valid(r)
    ensures Lookup(r.manifests, name).None?
    ensures forall m :: m in r.manifests <==> m in reg.manifests && m.file.name != name
    ensures Lookup(reg.manifests, name).None? ==> r == reg
    ensures forall i :: 0 <= i < |reg.manifests| && reg.manifests[i].file.name == name ==>
      r.manifests == reg.manifests[..i] + reg.manifests[i + 1..]
    ensures r.hostPathMap == reg.hostPathMap && r.nextKey == reg.nextKey && r.backgroundPages == reg.backgroundPages
  {
    DeleteKeepsValid(reg, name);
    DeleteSplicesAll(reg.manifests, name);
    reg.(manifests := Delete(reg.manifests, name))
  }

  /** Dropping cached manifests keeps the registry invariant. */
  lemma DeleteKeepsValid(reg: Registry, name: string)
    requires Valid(reg)
    ensures Valid(reg.(manifests := Delete(reg.manifests, name)))
  {
    var r := reg.(manifests := Delete(reg.manifests, name));
    DeleteKeepsUnique(reg.manifests, name);
    assert HostsAllocated(r);
    forall i | 0 <= i < |r.manifests|
      ensures r.manifests[i].file.name !in ObjectPrototypeNames
      ensures r.manifests[i].hostname in r.hostPathMap && r.hostPathMap[r.manifests[i].hostname] == r.manifests[i].srcDirectory
    {
      assert r.manifests[i] in reg.manifests;
      var j :| 0 <= j < |reg.manifests| && reg.manifests[j] == r.manifests[i];
    }
  }

  lemma {:induction false} DeleteKeepsUnique(manifests: seq<Manifest>, name: string)
    requires UniqueNames(manifests)
    ensures UniqueNames(Delete(manifests, name))
  {
    if exists i :: 0 <= i < |manifests| && manifests[i].file.name == name {
      var i :| 0 <= i < |manifests| && manifests[i].file.name == name;
      DeleteSplices(manifests, name, i);
      SpliceKeepsUnique(manifests, i);
    }
  }

  lemma SpliceKeepsUnique(manifests: seq<Manifest>, i: nat)
    requires UniqueNames(manifests) && i < |manifests|
    ensures UniqueNames(manifests[..i] + manifests[i + 1..])
  {
    var d := manifests[..i] + manifests[i + 1..];
    forall a, b | 0 <= a < b < |d| ensures d[a].file.name != d[b].file.name {
      var a' := if a < i then a else a + 1;
      var b' := if b < i then b else b + 1;
      assert d[a] == manifests[a'] && d[b] == manifests[b'];
    }
  }

  // ---------------------------------------------------------------------
  // The chrome-extension: protocol handler

  /** The parts of `url.parse(request.url)` the handler reads. */
  datatype ParsedUrl = ParsedUrl(hostname: Option<string>, path: Option<string>)

  /** What the handler passes to its callback: nothing, a buffer to serve,
      or a network error code. */
  datatype Reply = NoReply | Serve(mimeType: string, data: string) | NetError(code: int)

  /** `FILE_NOT_FOUND`. */
  const FileNotFound: int := -6

  /** `/extension-\d+/.test(hostname)`: the prefix followed by a digit,
      anywhere in the name. */
  predicate LooksLikeExtensionHost(h: string) {
    exists i :: 0 <= i < |h| && HostPatternAt(h, i)
  }

  predicate HostPatternAt(h: string, i: int) {
    0 <= i && i + |HostPrefix| < |h| && h[i..i + |HostPrefix|] == HostPrefix && IsDigit(h[i + |HostPrefix|])
  }

  function ReadFile(files: Files, directory: string, path: string): Option<string> {
    if (directory, path) in files.contents then Some(files.contents[(directory, path)]) else None
  }

  /** `chromeExtensionHandler`. */
  function Route(reg: Registry, files: Files, url: ParsedUrl): (r: Reply)
    ensures r.NoReply? <==>
      || !Given(url.hostname) || !Given(url.path)
      || !LooksLikeExtensionHost(url.hostname.value)
      || !Given(GetPathForHost(reg, url.hostname.value))
    ensures !r.NoReply? && url.path.value == BackgroundPagePath && url.hostname.value in reg.backgroundPages
            ==> r == Serve("text/html", reg.backgroundPages[url.hostname.value].html)
    ensures !r.NoReply? && !(url.path.value == BackgroundPagePath && url.hostname.value in reg.backgroundPages) ==>
      match ReadFile(files, reg.hostPathMap[url.hostname.value], url.path.value)
      case None => r == NetError(FileNotFound)
      case Some(content) => r == Serve("text/html", content)
  {
    if !Given(url.hostname) || !Given(url.path) then NoReply
    else if !LooksLikeExtensionHost(url.hostname.value) then NoReply
    else
      var directory := GetPathForHost(reg, url.hostname.value);
      if !Given(directory) then NoReply
      else if url.path.value == BackgroundPagePath && url.hostname.value in reg.backgroundPages then
        Serve("text/html", reg.backgroundPages[url.hostname.value].html)
      else
        match ReadFile(files, directory.value, url.path.value)
        case None => NetError(FileNotFound)
        case Some(content) => Serve("text/html", content)
  }

  /** Every allocated host name passes the handler's host test. */
  lemma AllocatedHostLooksLikeExtension(n: nat)
    ensures LooksLikeExtensionHost(HostName(n))
  {
    var h := HostName(n);
    assert h[0..|HostPrefix|] == HostPrefix;
    assert h[|HostPrefix|] == Decimal(n)[0];
    assert HostPatternAt(h, 0);
  }

  /** A registered extension's files are served from its directory. */
  lemma RegisteredHostIsServed(reg: Registry, files: Files, m: Manifest, path: string)
    requires Valid(reg)
    requires m.hostname in reg.hostPathMap && reg.hostPathMap[m.hostname] == m.srcDirectory && m.srcDirectory != ""
    requires path != "" && path != BackgroundPagePath
    ensures Route(reg, files, ParsedUrl(Some(m.hostname), Some(path)))
            == (if (m.srcDirectory, path) in files.contents
                then Serve("text/html", files.contents[(m.srcDirectory, path)]) else NetError(FileNotFound))
  {
    var n :| 1 <= n <= reg.nextKey && m.hostname == HostName(n);
    AllocatedHostLooksLikeExtension(n);
  }

  /** Removing an extension does not unregister its host: every path other
      than the background page is still answered exactly as before. */
  lemma RemovedHostStillServed(reg: Registry, files: Files, name: string, path: string)
    requires Valid(reg) && Lookup(reg.manifests, name).Some?
    requires path != "" && path != BackgroundPagePath
    ensures var m := Lookup(reg.manifests, name).value;
            m.srcDirectory != "" ==>
            && Route(RemoveDevToolsExtension(reg, name), files, ParsedUrl(Some(m.hostname), Some(path)))
               == Route(reg, files, ParsedUrl(Some(m.hostname), Some(path)))
            && Route(reg, files, ParsedUrl(Some(m.hostname), Some(path)))
               == (if (m.srcDirectory, path) in files.contents
                   then Serve("text/html", files.contents[(m.srcDirectory, path)]) else NetError(FileNotFound))
  {
    var m := Lookup(reg.manifests, name).value;
    var i :| 0 <= i < |reg.manifests| && reg.manifests[i] == m;
    if m.srcDirectory != "" {
      RegisteredHostIsServed(reg, files, m, path);
      RegisteredHostIsServed(RemoveDevToolsExtension(reg, name), files, m, path);
    }
  }

  // ---------------------------------------------------------------------
  // Persistence across runs

  datatype QuitAction = WriteList(srcDirectories: seq<string>) | DeleteFile

  function SourceDirectories(manifests: seq<Manifest>): (r: seq<string>)
    ensures |r| == |manifests|
    ensures forall i :: 0 <= i < |manifests| ==> r[i] == manifests[i].srcDirectory
  {
    if |manifests| == 0 then [] else [manifests[0].srcDirectory] + SourceDirectories(manifests[1..])
  }

  /** The `will-quit` decision: write the directories of the cached
      manifests in cache order, or delete the file when none is cached. */
  function PersistOnQuit(reg: Registry): (r: QuitAction)
    ensures r.DeleteFile? <==> |reg.manifests| == 0
    ensures r.WriteList? ==> |r.srcDirectories| == |reg.manifests|
    ensures r.WriteList? ==> forall i :: 0 <= i < |reg.manifests| ==> r.srcDirectories[i] == reg.manifests[i].srcDirectory
  {
    var loaded := SourceDirectories(reg.manifests);
    if |loaded| > 0 then WriteList(loaded) else DeleteFile
  }

  /** The `ready` preheat: load each persisted directory in order; the
      first unreadable one ends the loop, keeping what was loaded so far. */
  function Preheat(reg: Registry, files: Files, srcDirectories: seq<string>): (r: Registry)
    requires Valid(reg)
    ensures Valid(r)
    ensures |reg.manifests| <= |r.manifests| && r.manifests[..|reg.manifests|] == reg.manifests
    ensures |r.manifests| - |reg.manifests| <= |srcDirectories|
    ensures r.backgroundPages == reg.backgroundPages
    ensures |srcDirectories| > 0 && srcDirectories[0] !in files.manifests ==> r == reg
    decreases |srcDirectories|
  {
    if |srcDirectories| == 0 then reg
    else match GetManifestFromPath(reg, files, srcDirectories[0])
      case Err(_) => reg
      case Ok(loaded) =>
        var r := Preheat(loaded.registry, files, srcDirectories[1..]);
        assert |loaded.registry.manifests| <= |reg.manifests| + 1;
        assert loaded.registry.manifests[..|reg.manifests|] == reg.manifests;
        PrefixOfPrefix(reg.manifests, loaded.registry.manifests, r.manifests);
        r
  }

  lemma PrefixOfPrefix<T>(a: seq<T>, b: seq<T>, c: seq<T>)
    requires |a| <= |b| <= |c| && c[..|b|] == b && b[..|a|] == a
    ensures c[..|a|] == a
  {
    assert c[..|a|] == c[..|b|][..|a|];
  }

  /** The preheat of a persisted file: nothing when the file is absent. */
  function Restore(files: Files, persisted: QuitAction): (r: Registry)
    ensures Valid(r)
  {
    assert HostsAllocated(Initial);
    match persisted
    case DeleteFile => Initial
    case WriteList(dirs) => Preheat(Initial, files, dirs)
  }

  /** Two manifest lists agree on what was loaded from where. */
  predicate SameEntries(a: seq<Manifest>, b: seq<Manifest>) {
    |a| == |b| && forall i :: 0 <= i < |a| ==> a[i].file == b[i].file && a[i].srcDirectory == b[i].srcDirectory
  }

  /** The files still hold the manifests that were loaded from them. */
  predicate FilesAgree(files: Files, manifests: seq<Manifest>) {
    forall i :: 0 <= i < |manifests| ==>
      manifests[i].srcDirectory in files.manifests && files.manifests[manifests[i].srcDirectory] == manifests[i].file
  }

  lemma {:induction false} PreheatRestores(reg: Registry, files: Files, ms: seq<Manifest>)
    requires Valid(reg)
    requires FilesAgree(files, ms)
    requires UniqueNames(reg.manifests + ms)
    requires forall i :: 0 <= i < |ms| ==> ms[i].file.name !in ObjectPrototypeNames
    ensures SameEntries(Preheat(reg, files, SourceDirectories(ms)).manifests, reg.manifests + ms)
    decreases |ms|
  {
    if |ms| == 0 {
      assert reg.manifests + ms == reg.manifests;
    } else {
      var dirs := SourceDirectories(ms);
      assert dirs[1..] == SourceDirectories(ms[1..]);
      var file := files.manifests[ms[0].srcDirectory];
      assert (reg.manifests + ms)[|reg.manifests|] == ms[0];
      assert file.name !in ObjectPrototypeNames;
      assert Lookup(reg.manifests, file.name).None? by {
        forall i | 0 <= i < |reg.manifests| ensures reg.manifests[i].file.name != file.name {
          assert (reg.manifests + ms)[i] == reg.manifests[i];
        }
      }
      var loaded := GetManifestFromPath(reg, files, ms[0].srcDirectory).value;
      var m := loaded.manifest.value;
      var next := loaded.registry.manifests + ms[1..];
      ReplaceFirstKeepsEntries(reg.manifests, m, ms);
      assert FilesAgree(files, ms[1..]) by {
        forall i | 0 <= i < |ms[1..]| ensures ms[1..][i] == ms[i + 1] {}
      }
      PreheatRestores(loaded.registry, files, ms[1..]);
      var result := Preheat(loaded.registry, files, dirs[1..]);
      assert SameEntries(result.manifests, loaded.registry.manifests + ms[1..]);
      assert loaded.registry.manifests + ms[1..] == next;
    }
  }

  /** Loading the first of `ms` afresh keeps the entries and their unique names. */
  lemma ReplaceFirstKeepsEntries(prefix: seq<Manifest>, m: Manifest, ms: seq<Manifest>)
    requires |ms| > 0 && m.file == ms[0].file && m.srcDirectory == ms[0].srcDirectory
    requires UniqueNames(prefix + ms)
    ensures SameEntries(prefix + [m] + ms[1..], prefix + ms)
    ensures UniqueNames(prefix + [m] + ms[1..])
  {
    var next := prefix + [m] + ms[1..];
    var all := prefix + ms;
    forall i | 0 <= i < |next|
      ensures next[i].file == all[i].file && next[i].srcDirectory == all[i].srcDirectory
    {
      if i < |prefix| {
        assert next[i] == prefix[i] && all[i] == prefix[i];
      } else if i == |prefix| {
        assert next[i] == m && all[i] == ms[0];
      } else {
        assert next[i] == ms[i - |prefix|] && all[i] == ms[i - |prefix|];
      }
    }
    forall i, j | 0 <= i < j < |next| ensures next[i].file.name != next[j].file.name {
      assert next[i].file == all[i].file;
      assert next[j].file == all[j].file;
    }
  }

  /** What `will-quit` persists, the next `ready` loads back: the same
      manifests from the same directories, in the same order, provided the
      extension directories still hold them. */
  lemma QuitThenRestoreRoundTrip(reg: Registry, files: Files)
    requires Valid(reg)
    requires FilesAgree(files, reg.manifests)
    ensures SameEntries(Restore(files, PersistOnQuit(reg)).manifests, reg.manifests)
  {
    if |reg.manifests| > 0 {
      assert HostsAllocated(Initial);
      assert Initial.manifests + reg.manifests == reg.manifests;
      PreheatRestores(Initial, files, reg.manifests);
    }
  }
}

=== FILE: client_request.dfy ===
/** `ClientRequest` of the `net` module: resolves the request options into
    a method and a URL, keeps a case-insensitive copy of the extra headers
    guarded by the native request's "not started" flag, and applies the
    write-after-end rules. The native `URLRequest` it drives is abstract:
    its `notStarted` and `finished` flags are state the façade reads, and
    every call into it is recorded. */
module ClientRequest {
  import opened Wrappers
  import opened Ascii
  import Transport

  /** JavaScript values, as far as the façade tells them apart. */
  datatype Value =
    | Undefined
    | Null
    | Bool(b: bool)
    | Num(n: int)
    | Str(s: string)
    | Buffer(bytes: seq<Transport.byte>)
    | Function(id: nat)
    | Builtin(name: string)

  /** JavaScript truthiness. */
  predicate Truthy(v: Value) {
    match v
    case Undefined => false
    case Null => false
    case Bool(b) => b
    case Num(n) => n != 0
    case Str(s) => s != ""
    case Buffer(_) => true
    case Function(_) => true
    case Builtin(_) => true
  }

  /** `typeof v === 'function'`: a user function, or the `Object`
      constructor that an inherited `constructor` property yields. */
  predicate IsFunction(v: Value) {
    v.Function? || v == Builtin("Object")
  }

  datatype ErrorClass = TypeError | PlainError

  datatype JsError = Thrown(errorClass: ErrorClass, message: string)

  /** The copied option object; string fields absent when not supplied. */
  datatype Options = Options(
    httpMethod: Value,
    url: Option<string>,
    protocol: Option<string>,
    host: Option<string>,
    hostname: Option<string>,
    port: Value,
    path: Option<string>,
    session: Option<string>,
    headers: Option<seq<(string, Value)>>)

  /** The object handed to `url.format` when no `url` option is given. */
  datatype UrlObject = UrlObject(
    protocol: string,
    host: Option<string>,
    hostname: Option<string>,
    port: Option<Value>,
    path: string)

  datatype Target = GivenUrl(url: string) | Formatted(parts: UrlObject)

  /** Calls the façade makes on the native `URLRequest`. */
  datatype NativeCall =
    | Construct(httpMethod: string, target: Target, session: string)
    | SetExtraHeader(name: string, value: Value)
    | RemoveExtraHeader(name: string)
    | NativeWrite(payload: Payload, isLast: bool)
    | SetChunkedUpload(chunked: Value)
    | Cancel

  /** A chunk as passed to the native write: strings are converted to a
      buffer with the given encoding, buffers pass through. */
  datatype Payload = Encoded(text: string, encoding: Value) | Raw(bytes: seq<Transport.byte>)

  datatype Native = Native(notStarted: bool, finished: bool, calls: seq<NativeCall>)

  /** Work scheduled with `process.nextTick`. */
  datatype Deferred = EmitWriteAfterEnd(callback: Value) | RunCallback(callback: Value)

  datatype Request = Request(
    httpMethod: string,
    target: Target,
    session: string,
    native: Native,
    extraHeaders: Option<map<string, Value>>,
    chunkedEncoding: Value,
    onResponse: Value,
    deferred: seq<Deferred>)

  // ---------------------------------------------------------------------
  // Option resolution

  const SupportedProtocols: set<string> := {"http:", "https:"}

  /** The protocol used when none is given, as written: without the colon
      every member of `SupportedProtocols` carries. */
  const DefaultProtocol: string := "http"

  /** The default evidently intended. */
  const IntendedDefaultProtocol: string := "http:"

  /** `(options.method || 'GET').toUpperCase()`: a truthy method that is
      not a string has no `toUpperCase`, so the call throws. */
  function ResolveMethod(o: Options): (r: Result<string, JsError>)
    ensures !Truthy(o.httpMethod) ==> r == Ok("GET")
    ensures Truthy(o.httpMethod) && !o.httpMethod.Str? ==> r.Err? && r.error.errorClass == TypeError
    ensures Truthy(o.httpMethod) && o.httpMethod.Str? ==> r.Ok? && SameIgnoringCase(r.value, o.httpMethod.s)
    ensures r.Ok? ==> forall i :: 0 <= i < |r.value| ==> !IsLower(r.value[i])
  {
    if !Truthy(o.httpMethod) then
      Ok("GET")
    else if !o.httpMethod.Str? then
      Err(Thrown(TypeError, "(options.method || 'GET').toUpperCase is not a function"))
    else
      UpperIsCaseVariant(o.httpMethod.s);
      Ok(Upper(o.httpMethod.s))
  }

  function ProtocolOf(o: Options, defaultProtocol: string): string {
    if Given(o.protocol) then o.protocol.value else defaultProtocol
  }

  predicate HasSpace(s: string) {
    exists i :: 0 <= i < |s| && s[i] == ' '
  }

  /** The URL decision of the constructor for a given default protocol. A
      `url` option is taken as is; otherwise the protocol must be supported,
      `host` wins over `hostname` and `port`, the path defaults to `/` and
      must not contain a space. */
  function ResolveTargetWith(o: Options, defaultProtocol: string): (r: Result<Target, JsError>)
    ensures Given(o.url) ==> r == Ok(GivenUrl(o.url.value))
    ensures r.Err? <==> !Given(o.url) && (ProtocolOf(o, defaultProtocol) !in SupportedProtocols || (Given(o.path) && HasSpace(o.path.value)))
    ensures !Given(o.url) && ProtocolOf(o, defaultProtocol) !in SupportedProtocols
            ==> r == Err(Thrown(PlainError, "Protocol \"" + ProtocolOf(o, defaultProtocol) + "\" not supported. "))
    ensures !Given(o.url) && ProtocolOf(o, defaultProtocol) in SupportedProtocols && Given(o.path) && HasSpace(o.path.value)
            ==> r == Err(Thrown(TypeError, "Request path contains unescaped characters."))
    ensures r.Ok? && !Given(o.url) ==>
      && r.value.Formatted?
      && r.value.parts.protocol == ProtocolOf(o, defaultProtocol)
      && r.value.parts.protocol in SupportedProtocols
      && r.value.parts.path == (if Given(o.path) then o.path.value else "/")
      && !HasSpace(r.value.parts.path)
      && (Given(o.host) ==> r.value.parts.host == o.host && r.value.parts.hostname.None? && r.value.parts.port.None?)
      && (!Given(o.host) ==>
            && r.value.parts.host.None?
            && r.value.parts.hostname == Some(if Given(o.hostname) then o.hostname.value else "localhost")
            && (r.value.parts.port.Some? <==> Truthy(o.port))
            && (Truthy(o.port) ==> r.value.parts.port == Some(o.port)))
  {
    if Given(o.url) then Ok(GivenUrl(o.url.value))
    else
      var protocol := ProtocolOf(o, defaultProtocol);
      if protocol !in SupportedProtocols then
        Err(Thrown(PlainError, "Protocol \"" + protocol + "\" not supported. "))
      else
        var path := if Given(o.path) then o.path.value else "/";
        if Given(o.path) && HasSpace(o.path.value) then
          Err(Thrown(TypeError, "Request path contains unescaped characters."))
        else if Given(o.host) then
          Ok(Formatted(UrlObject(protocol, o.host, None, None, path)))
        else
          var hostname := if Given(o.hostname) then o.hostname.value else "localhost";
          var port := if Truthy(o.port) then Some(o.port) else None;
          Ok(Formatted(UrlObject(protocol, None, Some(hostname), port, path)))
  }

  /** The constructor's URL decision as written. */
  function ResolveTarget(o: Options): Result<Target, JsError> {
    ResolveTargetWith(o, DefaultProtocol)
  }

  /** The constructor's URL decision with the evidently intended default. */
  function ResolveTargetIntended(o: Options): Result<Target, JsError> {
    ResolveTargetWith(o, IntendedDefaultProtocol)
  }

  /** As written, leaving out both `url` and `protocol` always throws, even
      though the code supplies a default protocol. */
  lemma DefaultProtocolRejected(o: Options)
    requires !Given(o.url) && !Given(o.protocol)
    ensures ResolveTarget(o) == Err(Thrown(PlainError, "Protocol \"http\" not supported. "))
  {
    assert |DefaultProtocol| == 4;
    assert DefaultProtocol !in SupportedProtocols;
    assert "Protocol \"" + DefaultProtocol + "\" not supported. " == "Protocol \"http\" not supported. ";
  }

  /** With the intended default, a request without `url` or `protocol`
      resolves to plain HTTP whenever its path is acceptable. */
  lemma IntendedDefaultProtocolAccepted(o: Options)
    requires !Given(o.url) && !Given(o.protocol)
    requires !(Given(o.path) && HasSpace(o.path.value))
    ensures ResolveTargetIntended(o).Ok?
    ensures ResolveTargetIntended(o).value.parts.protocol == "http:"
  {
  }

  // ---------------------------------------------------------------------
  // Headers

  /** The header copy is a plain `{}`: a key it does not own is read from
      `Object.prototype`. Keys are lower-cased, so `constructor` and the
      `__proto__` accessor are the only inherited names a key can reach. */
  const ProtoKey: string := "__proto__"

  function Inherited(key: string): Value {
    if key == "constructor" then Builtin("Object")
    else if key == ProtoKey then Builtin("Object.prototype")
    else Undefined
  }

  /** `copy[key]`: the own property if there is one, else the inherited
      value. `__proto__` is never an own property of the copy. */
  function Property(copy: map<string, Value>, key: string): Value {
    if key != ProtoKey && key in copy then copy[key] else Inherited(key)
  }

  /** `setHeader(name, value)`. */
  function SetHeader(r: Request, name: Value, value: Value): (res: Result<Request, JsError>)
    ensures res.Err? <==> !name.Str? || value.Undefined? || !r.native.notStarted || r.extraHeaders.None?
    ensures !name.Str? ==> res == Err(Thrown(TypeError, "`name` should be a string in setHeader(name, value)."))
    ensures name.Str? && value.Undefined?
            ==> res == Err(Thrown(PlainError, "`value` required in setHeader(\"" + name.s + "\", value)."))
    ensures name.Str? && !value.Undefined? && !r.native.notStarted
            ==> res == Err(Thrown(PlainError, "Can't set headers after they are sent."))
    ensures res.Ok? && Lower(name.s) != ProtoKey ==> res.value.extraHeaders == Some(r.extraHeaders.value[Lower(name.s) := value])
    ensures res.Ok? && Lower(name.s) == ProtoKey ==> res.value.extraHeaders == r.extraHeaders
    ensures res.Ok? ==>
      && res.value.native.calls == r.native.calls + [SetExtraHeader(name.s, value)]
      && res.value.native.notStarted == r.native.notStarted
      && res.value.native.finished == r.native.finished
  {
    if !name.Str? then
      Err(Thrown(TypeError, "`name` should be a string in setHeader(name, value)."))
    else if value.Undefined? then
      Err(Thrown(PlainError, "`value` required in setHeader(\"" + name.s + "\", value)."))
    else if !r.native.notStarted then
      Err(Thrown(PlainError, "Can't set headers after they are sent."))
    else
      var key := Lower(name.s);
      match r.extraHeaders
      case None =>
        // Assigning a property of `undefined`.
        Err(Thrown(TypeError, "Cannot set property '" + key + "' of undefined"))
      case Some(headers) =>
        // Assigning a primitive to the `__proto__` accessor is ignored.
        Ok(r.(extraHeaders := Some(if key == ProtoKey then headers else headers[key := value]),
              native := r.native.(calls := r.native.calls + [SetExtraHeader(name.s, value)])))
  }

  /** `getHeader(name)`; `name` is `None` when no argument is passed. A
      header the copy does not own reads as what `Object.prototype` holds
      under that key, which is `undefined` for every key but two. */
  function GetHeader(r: Request, name: Option<Value>): (res: Result<Value, JsError>)
    ensures name.None? ==> res == Err(Thrown(PlainError, "`name` is required for getHeader(name)."))
    ensures name.Some? && r.extraHeaders.None? ==> res == Ok(Undefined)
    ensures (name.Some? && name.value.Str? && r.extraHeaders.Some? && Lower(name.value.s) != ProtoKey
             && Lower(name.value.s) in r.extraHeaders.value) ==> res == Ok(r.extraHeaders.value[Lower(name.value.s)])
    ensures (name.Some? && name.value.Str? && r.extraHeaders.Some?
             && (Lower(name.value.s) == ProtoKey || Lower(name.value.s) !in r.extraHeaders.value))
            ==> res == Ok(Inherited(Lower(name.value.s)))
    ensures name.Some? && !name.value.Str? && r.extraHeaders.Some? ==> res.Err? && res.error.errorClass == TypeError
  {
    match name
    case None => Err(Thrown(PlainError, "`name` is required for getHeader(name)."))
    case Some(n) =>
      match r.extraHeaders
      case None => Ok(Undefined)
      case Some(headers) =>
        if !n.Str? then Err(Thrown(TypeError, "name.toLowerCase is not a function"))
        else
          Ok(Property(headers, Lower(n.s)))
  }

  /** `removeHeader(name)`; `name` is `None` when no argument is passed. */
  function RemoveHeader(r: Request, name: Option<Value>): (res: Result<Request, JsError>)
    ensures res.Err? <==> name.None? || !r.native.notStarted || !name.value.Str? || r.extraHeaders.None?
    ensures name.None? ==> res == Err(Thrown(PlainError, "`name` is required for removeHeader(name)."))
    ensures name.Some? && !r.native.notStarted ==> res == Err(Thrown(PlainError, "Can't remove headers after they are sent."))
    ensures res.Ok? ==>
      && res.value.extraHeaders == Some(r.extraHeaders.value - {Lower(name.value.s)})
      && res.value.native.calls == r.native.calls + [RemoveExtraHeader(name.value.s)]
  {
    match name
    case None => Err(Thrown(PlainError, "`name` is required for removeHeader(name)."))
    case Some(n) =>
      if !r.native.notStarted then Err(Thrown(PlainError, "Can't remove headers after they are sent."))
      else if !n.Str? then Err(Thrown(TypeError, "name.toLowerCase is not a function"))
      else
        match r.extraHeaders
        case None => Err(Thrown(TypeError, "Cannot convert undefined or null to object"))
        case Some(headers) =>
          Ok(r.(extraHeaders := Some(headers - {Lower(n.s)}),
                native := r.native.(calls := r.native.calls + [RemoveExtraHeader(n.s)])))
  }

  /** On a request that has not started, a header set under one name reads
      back under every casing of it; `__proto__` still reads as the
      prototype, since the assignment was ignored. */
  lemma SetThenGetHeader(r: Request, name: string, value: Value, other: string)
    requires r.native.notStarted && r.extraHeaders.Some? && !value.Undefined?
    requires SameIgnoringCase(name, other)
    ensures SetHeader(r, Str(name), value).Ok?
    ensures GetHeader(SetHeader(r, Str(name), value).value, Some(Str(other)))
            == Ok(if Lower(name) == ProtoKey then Builtin("Object.prototype") else value)
  {
  }

  /** Setting one header leaves every header of another name as it was. */
  lemma SetHeaderLeavesOthers(r: Request, name: string, value: Value, unrelated: string)
    requires r.native.notStarted && r.extraHeaders.Some? && !value.Undefined?
    requires !SameIgnoringCase(name, unrelated)
    ensures SetHeader(r, Str(name), value).Ok?
    ensures GetHeader(SetHeader(r, Str(name), value).value, Some(Str(unrelated))) == GetHeader(r, Some(Str(unrelated)))
  {
  }

  /** After a removal the header reads under every casing as what
      `Object.prototype` holds (`undefined` but for `constructor` and
      `__proto__`); removing a header that is not there leaves the copy as
      it was. */
  lemma RemoveThenGetHeader(r: Request, name: string, other: string)
    requires r.native.notStarted && r.extraHeaders.Some?
    requires SameIgnoringCase(name, other)
    ensures RemoveHeader(r, Some(Str(name))).Ok?
    ensures GetHeader(RemoveHeader(r, Some(Str(name))).value, Some(Str(other))) == Ok(Inherited(Lower(name)))
    ensures Lower(name) != "constructor" && Lower(name) != ProtoKey ==>
            GetHeader(RemoveHeader(r, Some(Str(name))).value, Some(Str(other))) == Ok(Undefined)
    ensures Lower(name) !in r.extraHeaders.value ==> RemoveHeader(r, Some(Str(name))).value.extraHeaders == r.extraHeaders
  {
    if Lower(name) !in r.extraHeaders.value {
      assert r.extraHeaders.value - {Lower(name)} == r.extraHeaders.value;
    }
  }

  // ---------------------------------------------------------------------
  // Chunked encoding

  /** The `chunkedEncoding` getter. */
  function ChunkedEncoding(r: Request): Value {
    r.chunkedEncoding
  }

  /** The `chunkedEncoding` setter. */
  function SetChunkedEncoding(r: Request, value: Value): (res: Result<Request, JsError>)
    ensures res.Err? <==> !r.native.notStarted
    ensures res.Err? ==> res.error == Thrown(PlainError, "Can't set the transfer encoding, headers have been sent.")
    ensures res.Ok? ==> ChunkedEncoding(res.value) == value && res.value.native == r.native
  {
    if !r.native.notStarted then
      Err(Thrown(PlainError, "Can't set the transfer encoding, headers have been sent."))
    else
      Ok(r.(chunkedEncoding := value))
  }

  // ---------------------------------------------------------------------
  // Writing the body

  /** What the native write reports, and the native flags after it. */
  datatype NativeWriteOutcome = NativeWriteOutcome(accepted: bool, notStartedAfter: bool, finishedAfter: bool)

  datatype Returned = Returned(request: Request, result: bool)

  /** The encoding names `Buffer.isEncoding` accepts, compared ignoring
      case. */
  const KnownEncodings: set<string> :=
    {"utf8", "utf-8", "ucs2", "ucs-2", "utf16le", "utf-16le", "latin1", "binary", "base64", "ascii", "hex"}

  /** `Buffer.from(string, encoding)` reads a missing, empty or non-string
      encoding as UTF-8 and throws for a string naming no encoding. */
  predicate UnknownEncoding(encoding: Value) {
    encoding.Str? && encoding.s != "" && Lower(encoding.s) !in KnownEncodings
  }

  /** `_write(chunk, encoding, callback, isLast)`. */
  function WriteChunk(r: Request, chunk: Value, encoding: Value, callback: Value, isLast: bool, w: NativeWriteOutcome)
    : (res: Result<Returned, JsError>)
    ensures res.Err? <==> (!chunk.Str? && !chunk.Buffer?) || (chunk.Str? && UnknownEncoding(encoding))
    ensures !chunk.Str? && !chunk.Buffer? ==> res == Err(Thrown(TypeError, "First argument must be a string or Buffer."))
    ensures chunk.Str? && UnknownEncoding(encoding) ==> res == Err(Thrown(TypeError, "\"encoding\" must be a valid string encoding"))
    ensures res.Ok? ==>
      && res.value.result == w.accepted
      && res.value.request.native.notStarted == w.notStartedAfter
      && res.value.request.native.finished == w.finishedAfter
      && |res.value.request.native.calls| > |r.native.calls|
      && res.value.request.native.calls[|r.native.calls|]
           == NativeWrite(if chunk.Str? then Encoded(chunk.s, encoding) else Raw(chunk.bytes), isLast)
      && res.value.request.native.calls[..|r.native.calls|] == r.native.calls
      && (w.notStartedAfter ==> |res.value.request.native.calls| == |r.native.calls| + 1)
      && (!w.notStartedAfter ==>
            res.value.request.native.calls
              == r.native.calls + [res.value.request.native.calls[|r.native.calls|], SetChunkedUpload(r.chunkedEncoding)])
      && res.value.request.deferred == r.deferred + (if Truthy(callback) then [RunCallback(callback)] else [])
  {
    if !chunk.Str? && !chunk.Buffer? then
      Err(Thrown(TypeError, "First argument must be a string or Buffer."))
    else if chunk.Str? && UnknownEncoding(encoding) then
      Err(Thrown(TypeError, "\"encoding\" must be a valid string encoding"))
    else
      var payload := if chunk.Str? then Encoded(chunk.s, encoding) else Raw(chunk.bytes);
      var written := r.native.calls + [NativeWrite(payload, isLast)];
      var calls := if !w.notStartedAfter then written + [SetChunkedUpload(r.chunkedEncoding)] else written;
      var deferred := if Truthy(callback) then r.deferred + [RunCallback(callback)] else r.deferred;
      Ok(Returned(r.(native := Native(w.notStartedAfter, w.finishedAfter, calls), deferred := deferred), w.accepted))
  }

  /** `write(data, encoding, callback)`. After the request finished it
      schedules a "Write after end." error event and still returns true. */
  function Write(r: Request, data: Value, encoding: Value, callback: Value, w: NativeWriteOutcome)
    : (res: Result<Returned, JsError>)
    ensures r.native.finished ==> res == Ok(Returned(r.(deferred := r.deferred + [EmitWriteAfterEnd(callback)]), true))
    ensures !r.native.finished ==> res == WriteChunk(r, data, encoding, callback, false, w)
  {
    if r.native.finished then
      Ok(Returned(r.(deferred := r.deferred + [EmitWriteAfterEnd(callback)]), true))
    else
      WriteChunk(r, data, encoding, callback, false, w)
  }

  /** The arguments `end` passes on after shifting a callback given in the
      data or encoding position. */
  datatype EndArgs = EndArgs(data: Value, encoding: Value, callback: Value)

  function ShiftEndArgs(data: Value, encoding: Value, callback: Value): (a: EndArgs)
    ensures Truthy(a.data) || a.data == Str("")
    ensures IsFunction(data) ==> a == EndArgs(Str(""), Null, data)
    ensures !IsFunction(data) && !Truthy(data) ==> a.data == Str("")
    ensures !IsFunction(data) && Truthy(data) ==> a.data == data
    ensures !IsFunction(data) && IsFunction(encoding) ==> a.encoding == Null && a.callback == encoding
    ensures !IsFunction(data) && !IsFunction(encoding) ==> a.encoding == encoding && a.callback == callback
  {
    var shifted :=
      if IsFunction(data) then EndArgs(Null, Null, data)
      else if IsFunction(encoding) then EndArgs(data, Null, encoding)
      else EndArgs(data, encoding, callback);
    shifted.(data := if Truthy(shifted.data) then shifted.data else Str(""))
  }

  /** `end(data, encoding, callback)`: returns false once the request has
      finished, and otherwise writes the last chunk. */
  function End(r: Request, data: Value, encoding: Value, callback: Value, w: NativeWriteOutcome)
    : (res: Result<Returned, JsError>)
    ensures r.native.finished ==> res == Ok(Returned(r, false))
    ensures !r.native.finished ==>
      var a := ShiftEndArgs(data, encoding, callback);
      res == WriteChunk(r, a.data, a.encoding, a.callback, true, w)
  {
    if r.native.finished then Ok(Returned(r, false))
    else
      var a := ShiftEndArgs(data, encoding, callback);
      WriteChunk(r, a.data, a.encoding, a.callback, true, w)
  }

  /** Once finished, `write` never reaches the native request and `end`
      changes nothing. */
  lemma NoWriteAfterFinish(r: Request, data: Value, encoding: Value, callback: Value, w: NativeWriteOutcome)
    requires r.native.finished
    ensures var res := Write(r, data, encoding, callback, w);
            res.Ok? && res.value.result && res.value.request.native == r.native
            && res.value.request.deferred == r.deferred + [EmitWriteAfterEnd(callback)]
    ensures End(r, data, encoding, callback, w) == Ok(Returned(r, false))
  {
  }

  /** `end` with no data still writes, as an empty last chunk. */
  lemma EndWithoutDataWritesEmptyLastChunk(r: Request, w: NativeWriteOutcome)
    requires !r.native.finished
    ensures var res := End(r, Undefined, Undefined, Undefined, w);
            res.Ok? && res.value.request.native.calls[|r.native.calls|] == NativeWrite(Encoded("", Undefined), true)
  {
  }

  /** `abort()`: forwards a cancel to the native request. */
  function Abort(r: Request): (res: Request)
    ensures res.native.calls == r.native.calls + [Cancel]
    ensures res.extraHeaders == r.extraHeaders && res.native.notStarted == r.native.notStarted
  {
    r.(native := r.native.(calls := r.native.calls + [Cancel]))
  }

  // ---------------------------------------------------------------------
  // Construction

  /** `setHeader` for each entry of `options.headers`, in key order,
      stopping at the first exception. */
  function ApplyHeaders(r: Request, headers: seq<(string, Value)>): (res: Result<Request, JsError>)
    ensures res.Err? <==>
      |headers| > 0 && (!r.native.notStarted || r.extraHeaders.None? || exists i :: 0 <= i < |headers| && headers[i].1.Undefined?)
    ensures res.Ok? ==>
      && res.value.native.notStarted == r.native.notStarted
      && |res.value.native.calls| == |r.native.calls| + |headers|
      && res.value.native.calls[..|r.native.calls|] == r.native.calls
      && forall i :: 0 <= i < |headers| ==> res.value.native.calls[|r.native.calls| + i] == SetExtraHeader(headers[i].0, headers[i].1)
    decreases |headers|
  {
    if |headers| == 0 then Ok(r)
    else match SetHeader(r, Str(headers[0].0), headers[0].1)
      case Err(e) => Err(e)
      case Ok(r') => ApplyHeaders(r', headers[1..])
  }

  /** The request the native side is constructed with, before the
      constructor touches any JavaScript-side field. */
  function Fresh(httpMethod: string, target: Target, session: string, callback: Value): Request {
    Request(httpMethod, target, session, Native(true, false, [Construct(httpMethod, target, session)]),
            None, Undefined, callback, [])
  }

  /** `options.session || ''`. */
  function SessionName(o: Options): string {
    if Given(o.session) then o.session.value else ""
  }

  /** The header list a constructor applies: the own keys of
      `options.headers`, none when it is absent. */
  function GivenHeaders(o: Options): seq<(string, Value)> {
    if o.headers.Some? then o.headers.value else []
  }

  /** The `ClientRequest` constructor as written: `options.headers` are
      applied before the header copy exists, and the copy is reset to empty
      afterwards. */
  function Create(o: Options, callback: Value): (res: Result<Request, JsError>)
    ensures ResolveMethod(o).Err? ==> res == Err(ResolveMethod(o).error)
    ensures ResolveMethod(o).Ok? && ResolveTarget(o).Err? ==> res == Err(ResolveTarget(o).error)
    ensures res.Ok? ==> res.value.httpMethod == ResolveMethod(o).value && res.value.target == ResolveTarget(o).value
    ensures ResolveMethod(o).Ok? && ResolveTarget(o).Ok? ==> (res.Ok? <==> |GivenHeaders(o)| == 0)
    ensures res.Ok? ==> res.value.extraHeaders == Some(map[]) && res.value.chunkedEncoding == Bool(false)
    ensures res.Ok? ==> res.value.native.notStarted && !res.value.native.finished
    ensures res.Ok? ==>
      && res.value.native.calls == [Construct(ResolveMethod(o).value, ResolveTarget(o).value, SessionName(o))]
      && res.value.session == SessionName(o)
      && res.value.onResponse == callback && res.value.deferred == []
  {
    match ResolveMethod(o)
    case Err(e) => Err(e)
    case Ok(httpMethod) =>
    match ResolveTarget(o)
    case Err(e) => Err(e)
    case Ok(target) =>
      var r0 := Fresh(httpMethod, target, SessionName(o), callback);
      var applied := if o.headers.Some? then ApplyHeaders(r0, o.headers.value) else Ok(r0);
      match applied
      case Err(e) => Err(e)
      case Ok(r1) =>
        NoHeaderCopyMeansUnchanged(r0, GivenHeaders(o));
        Ok(r1.(chunkedEncoding := Bool(false), extraHeaders := Some(map[])))
  }

  /** Without a header copy, applying headers either throws or (for no
      headers) does nothing. */
  lemma NoHeaderCopyMeansUnchanged(r: Request, headers: seq<(string, Value)>)
    requires r.extraHeaders.None?
    ensures ApplyHeaders(r, headers).Ok? ==> |headers| == 0 && ApplyHeaders(r, headers).value == r
  {
  }

  /** As written, any request built with at least one header throws: the
      first header's `setHeader` either rejects an undefined value with
      `Error` or assigns into the missing copy and throws `TypeError`. */
  lemma CreateWithHeadersThrows(o: Options, callback: Value)
    requires ResolveMethod(o).Ok? && ResolveTarget(o).Ok?
    requires o.headers.Some? && |o.headers.value| > 0
    ensures Create(o, callback).Err?
    ensures Create(o, callback).error.errorClass == (if o.headers.value[0].1.Undefined? then PlainError else TypeError)
  {
  }

  /** The constructor with the evidently intended order (header copy and
      chunked flag initialised first) and the intended default protocol. */
  function CreateIntended(o: Options, callback: Value): (res: Result<Request, JsError>)
    ensures ResolveMethod(o).Err? ==> res == Err(ResolveMethod(o).error)
    ensures ResolveMethod(o).Ok? && ResolveTargetIntended(o).Err? ==> res == Err(ResolveTargetIntended(o).error)
    ensures res.Ok? ==> res.value.httpMethod == ResolveMethod(o).value && res.value.target == ResolveTargetIntended(o).value
    ensures res.Ok? ==> res.value.extraHeaders.Some? && res.value.native.notStarted && !res.value.native.finished
    ensures ResolveMethod(o).Ok? && ResolveTargetIntended(o).Ok? ==>
      (res.Err? <==> o.headers.Some? && exists i :: 0 <= i < |o.headers.value| && o.headers.value[i].1.Undefined?)
    ensures res.Ok? ==>
      var headers := GivenHeaders(o);
      && res.value.chunkedEncoding == Bool(false)
      && res.value.session == SessionName(o)
      && res.value.onResponse == callback && res.value.deferred == []
      && |res.value.native.calls| == 1 + |headers|
      && res.value.native.calls[0] == Construct(ResolveMethod(o).value, ResolveTargetIntended(o).value, SessionName(o))
      && forall i :: 0 <= i < |headers| ==> res.value.native.calls[1 + i] == SetExtraHeader(headers[i].0, headers[i].1)
  {
    match ResolveMethod(o)
    case Err(e) => Err(e)
    case Ok(httpMethod) =>
    match ResolveTargetIntended(o)
    case Err(e) => Err(e)
    case Ok(target) =>
      var r0 := Fresh(httpMethod, target, SessionName(o), callback).(chunkedEncoding := Bool(false), extraHeaders := Some(map[]));
      if o.headers.Some? then
        ApplyHeadersKeepsShape(r0, o.headers.value);
        ApplyHeaders(r0, o.headers.value)
      else Ok(r0)
  }

  lemma {:induction false} ApplyHeadersKeepsShape(r: Request, headers: seq<(string, Value)>)
    ensures ApplyHeaders(r, headers).Ok? ==>
      var r' := ApplyHeaders(r, headers).value;
      && r'.httpMethod == r.httpMethod && r'.target == r.target
      && r'.native.notStarted == r.native.notStarted && r'.native.finished == r.native.finished
      && (r.extraHeaders.Some? ==> r'.extraHeaders.Some?)
      && r'.session == r.session && r'.chunkedEncoding == r.chunkedEncoding
      && r'.onResponse == r.onResponse && r'.deferred == r.deferred
    decreases |headers|
  {
    if |headers| > 0 {
      var step := SetHeader(r, Str(headers[0].0), headers[0].1);
      if step.Ok? {
        ApplyHeadersKeepsShape(step.value, headers[1..]);
      }
    }
  }

  predicate AllDefined(headers: seq<(string, Value)>) {
    forall i :: 0 <= i < |headers| ==> !headers[i].1.Undefined?
  }

  /** Reference reading of a header list: the value of the last entry whose
      name matches `name` up to case, or `undefined`. */
  function LastValue(headers: seq<(string, Value)>, name: string): Value
    decreases |headers|
  {
    if |headers| == 0 then Undefined
    else if SameIgnoringCase(headers[|headers| - 1].0, name) then headers[|headers| - 1].1
    else LastValue(headers[..|headers| - 1], name)
  }

  /** On a request that has not started, applying a list of defined headers
      succeeds and each name then reads back as its last value in the list. */
  lemma {:induction false} ApplyHeadersThenGet(r: Request, headers: seq<(string, Value)>, name: string)
    requires r.native.notStarted && r.extraHeaders.Some? && AllDefined(headers)
    ensures ApplyHeaders(r, headers).Ok?
    ensures ApplyHeaders(r, headers).value.native.notStarted
    ensures ApplyHeaders(r, headers).value.extraHeaders.Some?
    ensures GetHeader(ApplyHeaders(r, headers).value, Some(Str(name)))
            == (if Lower(name) != ProtoKey && LastValue(headers, name) != Undefined then Ok(LastValue(headers, name))
                else GetHeader(r, Some(Str(name))))
    decreases |headers|
  {
    if |headers| > 0 {
      var front := headers[..|headers| - 1];
      var last := headers[|headers| - 1];
      ApplyHeadersSnoc(r, front, last);
      assert AllDefined(front) by {
        forall i | 0 <= i < |front| ensures !front[i].1.Undefined? {
          assert front[i] == headers[i];
        }
      }
      ApplyHeadersThenGet(r, front, name);
      var mid := ApplyHeaders(r, front).value;
      assert headers == front + [last];
      if SameIgnoringCase(last.0, name) {
        SetThenGetHeader(mid, last.0, last.1, name);
      } else {
        SetHeaderLeavesOthers(mid, last.0, last.1, name);
      }
    }
  }

  /** Applying a list with one more entry is one more `setHeader`. */
  lemma {:induction false} ApplyHeadersSnoc(r: Request, front: seq<(string, Value)>, last: (string, Value))
    ensures ApplyHeaders(r, front + [last])
            == (match ApplyHeaders(r, front)
                case Err(e) => Err(e)
                case Ok(mid) => SetHeader(mid, Str(last.0), last.1))
    decreases |front|
  {
    if |front| == 0 {
      assert (front + [last])[1..] == [];
    } else {
      assert (front + [last])[0] == front[0];
      assert (front + [last])[1..] == front[1..] + [last];
      var step := SetHeader(r, Str(front[0].0), front[0].1);
      if step.Ok? {
        ApplyHeadersSnoc(step.value, front[1..], last);
      }
    }
  }

  /** With the intended constructor, every header passed in the options can
      be read back, under any casing, as the last value given for it; a
      name given no value reads as a fresh `{}` would answer. */
  lemma CreateIntendedKeepsHeaders(o: Options, callback: Value, name: string)
    requires ResolveMethod(o).Ok? && ResolveTargetIntended(o).Ok?
    requires o.headers.Some? && AllDefined(o.headers.value)
    ensures CreateIntended(o, callback).Ok?
    ensures GetHeader(CreateIntended(o, callback).value, Some(Str(name)))
            == Ok(if Lower(name) != ProtoKey && LastValue(o.headers.value, name) != Undefined
                  then LastValue(o.headers.value, name) else Inherited(Lower(name)))
  {
    var r0 := Fresh(ResolveMethod(o).value, ResolveTargetIntended(o).value, SessionName(o), callback)
                .(chunkedEncoding := Bool(false), extraHeaders := Some(map[]));
    ApplyHeadersThenGet(r0, o.headers.value, name);
  }
}

=== FILE: queues.dfy ===
/** Cross-thread task posting (`BrowserThread::PostTask`) as a FIFO log of
    posted tasks. The target thread accepts tasks while it has room; once it
    is shutting down every further post fails and the task is dropped. */
module Queues {

  /** How many more tasks the target thread accepts. */
  datatype Room = Unbounded | Remaining(slots: nat)

  datatype Queue<T> = Queue(items: seq<T>, room: Room) {
    predicate Accepting() {
      room.Unbounded? || room.slots > 0
    }
  }

  function Empty<T>(room: Room): Queue<T> {
    Queue([], room)
  }

  /** Result of one post: whether it was accepted, and the queue after it. */
  datatype Posted<T> = Posted(ok: bool, queue: Queue<T>)

  function Post<T(==)>(q: Queue<T>, x: T): (r: Posted<T>)
    ensures r.ok <==> q.Accepting()
    ensures r.ok ==> r.queue.items == q.items + [x]
    ensures !r.ok ==> r.queue == q
    ensures q.room.Unbounded? ==> r.queue.room.Unbounded?
    ensures r.ok && q.room.Remaining? ==> r.queue.room == Remaining(q.room.slots - 1)
  {
    match q.room
    case Unbounded => Posted(true, Queue(q.items + [x], Unbounded))
    case Remaining(n) =>
      if n == 0 then Posted(false, q) else Posted(true, Queue(q.items + [x], Remaining(n - 1)))
  }

  /** The tasks a queue gained between two of its states. */
  predicate Extends<T(==)>(before: Queue<T>, after: Queue<T>) {
    |before.items| <= |after.items| && after.items[..|before.items|] == before.items
  }

  function Appended<T(==)>(before: Queue<T>, after: Queue<T>): seq<T>
    requires Extends(before, after)
  {
    after.items[|before.items|..]
  }
}

=== FILE: transport.dfy ===
/** The underlying `net::URLRequest` as the session sees it: a status, the
    reusable 4096-byte read buffer the session hands to every `Read`, a
    scripted sequence of read outcomes standing in for the network, and the
    header stores the session reads and writes. Everything behind these
    (connection handling, HTTP parsing) is an oracle. */
module Transport {
  import opened Wrappers

  newtype byte = b: int | 0 <= b < 256

  /** `kBufferSize`: capacity of the reusable read buffer. */
  const BufferSize: nat := 4096

  /** `net::URLRequestStatus`. */
  datatype Status = Success | IoPending | Failed(error: int)

  /** `URLRequestStatus::is_success()`, which also holds while I/O is
      pending. */
  predicate IsSuccess(s: Status) {
    s.Success? || s.IoPending?
  }

  /** What the next `Read` on the transport does: deliver bytes
      synchronously (no bytes: end of stream), go asynchronous, or fail. */
  datatype ReadOutcome = Bytes(data: seq<byte>) | Pending | Fail(error: int)

  /** `net::HttpResponseHeaders`, an immutable snapshot. */
  datatype ResponseHeaders = ResponseHeaders(statusCode: int, statusMessage: string, lines: seq<(string, string)>)

  /** Calls the session makes on the transport from the IO thread. */
  datatype Call = StartCall | SetAuthCall(username: string, password: string) | CancelAuthCall

  /** Header names are compared ignoring ASCII case, so stores are keyed by
      the lower-cased name. */
  type HeaderStore = map<string, string>

  datatype Request = Request(
    httpMethod: string,
    url: string,
    status: Status,
    script: seq<ReadOutcome>,
    buffer: seq<byte>,
    responseHeaders: ResponseHeaders,
    extraHeaders: HeaderStore,
    fullHeaders: Option<HeaderStore>,
    calls: seq<Call>)

  predicate ChunkFits(o: ReadOutcome) {
    o.Bytes? ==> |o.data| <= BufferSize
  }

  /** The transport never returns more than the buffer it was handed. */
  predicate Valid(t: Request) {
    && |t.buffer| == BufferSize
    && forall i :: 0 <= i < |t.script| ==> ChunkFits(t.script[i])
  }

  /** Where a synchronous read leaves the reusable buffer: the new bytes at
      the front, stale bytes behind them. */
  function Fill(buffer: seq<byte>, data: seq<byte>): (r: seq<byte>)
    requires |data| <= |buffer|
    ensures |r| == |buffer|
    ensures r[..|data|] == data
  {
    data + buffer[|data|..]
  }

  /** `Read(buffer, kBufferSize, &bytes_read)`: `completed` is the boolean it
      returns. An exhausted script reads as end of stream. */
  datatype ReadResult = ReadResult(completed: bool, bytesRead: int, request: Request)

  function Read(t: Request): (r: ReadResult)
    requires Valid(t)
    ensures Valid(r.request)
    ensures |r.request.script| <= |t.script|
    ensures r.completed ==> 0 <= r.bytesRead <= BufferSize && r.request.status == t.status
    ensures r.completed && r.bytesRead > 0 ==> |r.request.script| < |t.script|
    ensures !r.completed ==> !r.request.status.Success?
    ensures r.request.responseHeaders == t.responseHeaders && r.request.calls == t.calls
  {
    if |t.script| == 0 then ReadResult(true, 0, t)
    else
      assert ChunkFits(t.script[0]);
      match t.script[0]
      case Bytes(d) => ReadResult(true, |d|, t.(script := t.script[1..], buffer := Fill(t.buffer, d)))
      case Pending => ReadResult(false, 0, t.(script := t.script[1..], status := IoPending))
      case Fail(e) => ReadResult(false, 0, t.(script := t.script[1..], status := Failed(e)))
  }

  /** The transport finishing a read that went asynchronous, as it does
      before it calls the delegate's `OnReadCompleted`. The outcome is an
      oracle like the script: bytes (none at end of stream), put at the
      front of the buffer with the status back at `Success`; or a failure,
      reported to the delegate as -1 bytes. `completed` is true for bytes. */
  function CompleteRead(t: Request, o: ReadOutcome): (r: ReadResult)
    requires Valid(t) && t.status.IoPending?
    requires ChunkFits(o) && !o.Pending?
    ensures Valid(r.request) && r.request.script == t.script
    ensures r.request.responseHeaders == t.responseHeaders && r.request.calls == t.calls
    ensures o.Bytes? ==> r.bytesRead == |o.data| && r.request.status == Success && r.request.buffer[..|o.data|] == o.data
    ensures o.Fail? ==> r.bytesRead < 0 && r.request.status == Failed(o.error)
  {
    if o.Bytes? then ReadResult(true, |o.data|, t.(status := Success, buffer := Fill(t.buffer, o.data)))
    else ReadResult(false, -1, t.(status := Failed(o.error)))
  }
}

=== FILE: url_request_stream.dfy ===
/** What the UI thread of `atom::AtomURLRequest` receives for a whole
    response, stated against a reference reading of the transport script
    that knows nothing of the reusable buffer, the `bytes_read` protocol or
    the loop: the leading non-empty chunks, and the status the transport is
    left in when they run out. */
module UrlRequestStream {
  import opened Wrappers
  import opened Queues
  import opened Transport
  import opened AtomUrlRequest

  /** The payloads a transport hands over synchronously, in order, before
      it reports end of stream, goes asynchronous or fails. */
  function Chunks(script: seq<ReadOutcome>): seq<seq<byte>> {
    if |script| == 0 then []
    else match script[0]
      case Bytes(d) => if |d| > 0 then [d] + Chunks(script[1..]) else []
      case Pending => []
      case Fail(_) => []
  }

  /** The status once those chunks have been read. */
  function StatusAfter(status: Status, script: seq<ReadOutcome>): Status {
    if |script| == 0 then status
    else match script[0]
      case Bytes(d) => if |d| > 0 then StatusAfter(status, script[1..]) else status
      case Pending => IoPending
      case Fail(e) => Failed(e)
  }

  function DataOf(chunks: seq<seq<byte>>): seq<Notification> {
    if |chunks| == 0 then [] else [Data(chunks[0])] + DataOf(chunks[1..])
  }

  /** The terminal notification: sent unless the transport is waiting for
      asynchronous I/O, in which case its callback will finish the job. */
  function Completion(status: Status): seq<Notification> {
    if status.IoPending? then [] else [Completed]
  }

  /** With a UI thread that accepts every task, `OnReadCompleted(n)` posts
      the copy of the `n` bytes already read, then one `Data` per further
      chunk in read order, then `Completed` unless I/O is pending. It posts
      only the completion when the status is not successful or `n` is not
      positive. */
  lemma {:induction false} ReadLoopDeliversStream(s: Session, bytesRead: int)
    requires Transport.Valid(s.request)
    requires bytesRead <= BufferSize
    requires s.toUi.room.Unbounded?
    ensures var r := OnReadCompleted(s, bytesRead);
            var t := s.request;
            && r.exit == Finished
            && (IsSuccess(t.status) && bytesRead > 0 ==>
                  && r.session.toUi.items == s.toUi.items + [Data(t.buffer[..bytesRead])]
                       + DataOf(Chunks(t.script)) + Completion(StatusAfter(t.status, t.script))
                  && r.session.request.status == StatusAfter(t.status, t.script))
            && (!IsSuccess(t.status) || bytesRead <= 0 ==>
                  && r.session.toUi.items == s.toUi.items + Completion(t.status)
                  && r.session.request == t)
    decreases |s.request.script|, if bytesRead > 0 then 1 else 0
  {
    var t := s.request;
    if IsSuccess(t.status) && bytesRead > 0 {
      var posted := CopyAndPostBuffer(s, bytesRead);
      var next := Read(posted.session.request);
      var s' := posted.session.(request := next.request);
      var d := Data(t.buffer[..bytesRead]);
      if |t.script| == 0 {
        ReadLoopDeliversStream(s', next.bytesRead);
      } else {
        match t.script[0]
        case Bytes(c) =>
          ReadLoopDeliversStream(s', next.bytesRead);
          if |c| > 0 {
            CopyOutRecoversRead(t.buffer, c);
            assert s'.request.buffer[..|c|] == c;
            assert DataOf(Chunks(t.script)) == [Data(c)] + DataOf(Chunks(t.script[1..]));
          }
        case Pending =>
        case Fail(e) =>
      }
    }
  }

  /** Each chunk is one entry of the script. */
  lemma {:induction false} ChunksWithinScript(script: seq<ReadOutcome>)
    ensures |Chunks(script)| <= |script|
  {
    if |script| > 0 && script[0].Bytes? && |script[0].data| > 0 {
      ChunksWithinScript(script[1..]);
    }
  }

  function Min(a: int, b: int): int {
    if a <= b then a else b
  }

  /** With a UI thread that accepts only `k` more tasks, the loop posts the
      first `k` notifications of the same stream. When the stream holds at
      least `k` data copies, the copy that does not fit is refused and the
      call returns at once: the status is untouched and the transport has
      read exactly `k` entries of its script, the last of them never posted. */
  ghost predicate DeliversPrefix(s: Session, bytesRead: int, k: nat)
    requires Transport.Valid(s.request) && 0 < bytesRead <= BufferSize
  {
    var r := OnReadCompleted(s, bytesRead);
    var t := s.request;
    var stream := LoopStream(t, bytesRead);
    && (r.exit == Abandoned <==> k <= |Chunks(t.script)|)
    && r.session.toUi.items == s.toUi.items + stream[..Min(k, |stream|)]
    && (r.exit == Abandoned ==>
          && r.session.request.status == t.status
          && k <= |t.script|
          && r.session.request.script == t.script[k..])
    && (r.exit == Finished ==> r.session.request.status == StatusAfter(t.status, t.script))
  }

  lemma {:induction false} BoundedReadLoopDeliversPrefix(s: Session, bytesRead: int, k: nat)
    requires Transport.Valid(s.request)
    requires 0 < bytesRead <= BufferSize
    requires IsSuccess(s.request.status)
    requires s.toUi.room == Remaining(k)
    ensures DeliversPrefix(s, bytesRead, k)
    decreases k
  {
    var t := s.request;
    if k == 0 {
    } else if |t.script| > 0 && t.script[0].Bytes? && |t.script[0].data| > 0 {
      var s' := ReadLoopStep(s, bytesRead);
      BoundedReadLoopDeliversPrefix(s', |t.script[0].data|, k - 1);
      BoundedReadLoopStepDelivers(s, bytesRead, k, s');
    } else {
      BoundedReadLoopStops(s, bytesRead, k);
    }
  }

  /** The inductive step: a turn that posts one copy and reads a non-empty
      chunk extends the prefix delivered from the next turn by that copy. */
  lemma BoundedReadLoopStepDelivers(s: Session, bytesRead: int, k: nat, s': Session)
    requires Transport.Valid(s.request) && 0 < bytesRead <= BufferSize && 0 < k
    requires |s.request.script| > 0 && s.request.script[0].Bytes? && 0 < |s.request.script[0].data| <= BufferSize
    requires s'.request == Read(s.request).request && Transport.Valid(s'.request)
    requires s'.toUi.items == s.toUi.items + [Data(s.request.buffer[..bytesRead])]
    requires OnReadCompleted(s, bytesRead) == OnReadCompleted(s', |s.request.script[0].data|)
    requires DeliversPrefix(s', |s.request.script[0].data|, k - 1)
    ensures DeliversPrefix(s, bytesRead, k)
  {
    var t := s.request;
    var c := t.script[0].data;
    var d := Data(t.buffer[..bytesRead]);
    LoopStreamCons(t, bytesRead, s'.request);
    var stream := LoopStream(t, bytesRead);
    var rest := LoopStream(s'.request, |c|);
    PrefixCons(d, rest, k);
    assert stream[..Min(k, |stream|)] == [d] + rest[..Min(k - 1, |rest|)];
    var r := OnReadCompleted(s', |c|);
    assert r.session.toUi.items == s.toUi.items + ([d] + rest[..Min(k - 1, |rest|)]);
    ChunksWithinScript(t.script[1..]);
    assert |Chunks(t.script)| == 1 + |Chunks(t.script[1..])|;
    if k - 1 <= |Chunks(t.script[1..])| {
      assert t.script[1..][k - 1..] == t.script[k..];
    }
  }

  /** One turn of the loop that reads a non-empty chunk: the copy is
      posted, the chunk read, and the loop carries on from there. */
  lemma ReadLoopStep(s: Session, bytesRead: int) returns (s': Session)
    requires Transport.Valid(s.request)
    requires 0 < bytesRead <= BufferSize
    requires IsSuccess(s.request.status) && s.toUi.Accepting()
    requires |s.request.script| > 0 && s.request.script[0].Bytes? && |s.request.script[0].data| > 0
    ensures s'.request == Read(s.request).request && Transport.Valid(s'.request)
    ensures |s.request.script[0].data| <= BufferSize
    ensures s'.toUi.items == s.toUi.items + [Data(s.request.buffer[..bytesRead])]
    ensures s.toUi.room.Remaining? ==> s'.toUi.room == Remaining(s.toUi.room.slots - 1)
    ensures OnReadCompleted(s, bytesRead) == OnReadCompleted(s', |s.request.script[0].data|)
  {
    var posted := CopyAndPostBuffer(s, bytesRead);
    var next := Read(posted.session.request);
    s' := posted.session.(request := next.request);
  }

  lemma PrefixCons<T>(x: T, xs: seq<T>, k: nat)
    requires 0 < k
    ensures ([x] + xs)[..Min(k, 1 + |xs|)] == [x] + xs[..Min(k - 1, |xs|)]
  {
  }

  /** The stream of a loop entered with `n` bytes already read: the copy of
      those bytes, one copy per further chunk, then the completion. */
  function LoopStream(t: Request, n: int): (r: seq<Notification>)
    requires Transport.Valid(t) && 0 < n <= BufferSize
    ensures |r| == 1 + |Chunks(t.script)| + |Completion(StatusAfter(t.status, t.script))|
  {
    DataOfLength(Chunks(t.script));
    [Data(t.buffer[..n])] + DataOf(Chunks(t.script)) + Completion(StatusAfter(t.status, t.script))
  }

  lemma {:induction false} DataOfLength(chunks: seq<seq<byte>>)
    ensures |DataOf(chunks)| == |chunks|
  {
    if |chunks| > 0 {
      DataOfLength(chunks[1..]);
    }
  }

  /** Reading a non-empty chunk moves it from the script to the head of the
      remaining stream. */
  lemma LoopStreamCons(t: Request, n: int, t': Request)
    requires Transport.Valid(t) && 0 < n <= BufferSize
    requires |t.script| > 0 && t.script[0].Bytes? && 0 < |t.script[0].data|
    requires t' == Read(t).request
    ensures 0 < |t.script[0].data| <= BufferSize && Transport.Valid(t')
    ensures LoopStream(t, n) == [Data(t.buffer[..n])] + LoopStream(t', |t.script[0].data|)
    ensures StatusAfter(t'.status, t'.script) == StatusAfter(t.status, t.script)
    ensures Chunks(t.script) == [t.script[0].data] + Chunks(t'.script)
  {
    var c := t.script[0].data;
    assert ChunkFits(t.script[0]);
    CopyOutRecoversRead(t.buffer, c);
    assert t'.buffer[..|c|] == c;
    assert DataOf(Chunks(t.script)) == [Data(c)] + DataOf(Chunks(t.script[1..]));
  }

  /** The step where the loop stops: a UI thread with room posts the copy,
      then the read that follows yields no chunk. */
  lemma BoundedReadLoopStops(s: Session, bytesRead: int, k: nat)
    requires Transport.Valid(s.request)
    requires 0 < bytesRead <= BufferSize
    requires IsSuccess(s.request.status)
    requires s.toUi.room == Remaining(k) && 0 < k
    requires !(|s.request.script| > 0 && s.request.script[0].Bytes? && |s.request.script[0].data| > 0)
    ensures var r := OnReadCompleted(s, bytesRead);
            var t := s.request;
            var stream := LoopStream(t, bytesRead);
            && Chunks(t.script) == []
            && r.exit == Finished
            && r.session.toUi.items == s.toUi.items + stream[..Min(k, |stream|)]
            && r.session.request.status == StatusAfter(t.status, t.script)
  {
    var t := s.request;
    var posted := CopyAndPostBuffer(s, bytesRead);
    var next := Read(posted.session.request);
    var s' := posted.session.(request := next.request);
    assert s'.toUi.room == Remaining(k - 1);
    assert s'.request.status == StatusAfter(t.status, t.script);
  }

  /** With a UI thread that accepts every task, a read that went
      asynchronous and completes with bytes delivers them, then every chunk
      the transport hands over synchronously after it, then completion
      unless I/O is pending again. Completing at end of stream or with a
      failure delivers only completion. */
  lemma AsyncReadDeliversStream(s: Session, o: ReadOutcome)
    requires Transport.Valid(s.request) && s.request.status.IoPending?
    requires ChunkFits(o) && !o.Pending?
    requires s.toUi.room.Unbounded?
    ensures var r := OnAsyncReadCompleted(s, o);
            var t := s.request;
            && r.exit == Finished
            && (o.Bytes? && |o.data| > 0 ==>
                  && r.session.toUi.items == s.toUi.items + [Data(o.data)]
                       + DataOf(Chunks(t.script)) + Completion(StatusAfter(Success, t.script))
                  && r.session.request.status == StatusAfter(Success, t.script))
            && (o.Fail? || o == Bytes([]) ==>
                  && r.session.toUi.items == s.toUi.items + [Completed]
                  && r.session.request.status == (if o.Fail? then Failed(o.error) else Success)
                  && r.session.request.script == t.script)
  {
    var done := CompleteRead(s.request, o);
    ReadLoopDeliversStream(s.(request := done.request), done.bytesRead);
  }

  /** `OnResponseStarted` with a UI thread that accepts every task: the
      headers are snapshotted exactly when the status is successful, and
      the delegate is sent `ResponseStarted`, then one `Data` per chunk the
      transport delivers synchronously, each carrying exactly the bytes of
      that read, then a single `Completed` unless I/O is pending. A request
      that already failed gets `ResponseStarted` and `Completed` only, and
      no read is made. */
  lemma ResponseDeliversStream(s: Session)
    requires Transport.Valid(s.request)
    requires s.toUi.room.Unbounded?
    ensures var r := OnResponseStarted(s);
            var t := s.request;
            && r.exit == Finished
            && (r.session.responseHeaders.Some? && r.session.responseHeaders != s.responseHeaders ==> IsSuccess(t.status))
            && (IsSuccess(t.status) ==>
                  && r.session.responseHeaders == Some(t.responseHeaders)
                  && r.session.toUi.items == s.toUi.items + [ResponseStarted]
                       + DataOf(Chunks(t.script)) + Completion(StatusAfter(t.status, t.script))
                  && r.session.request.status == StatusAfter(t.status, t.script))
            && (!IsSuccess(t.status) ==>
                  && r.session.toUi.items == s.toUi.items + [ResponseStarted, Completed]
                  && r.session.request == t)
  {
    var t := s.request;
    var first := InitialRead(t);
    var s1 := if IsSuccess(t.status) then s.(responseHeaders := Some(t.responseHeaders)) else s;
    var s3 := s1.(toUi := Post(s1.toUi, ResponseStarted).queue, request := first.request);
    ResponseStartsLoop(s, s3, first);
    if IsSuccess(t.status) {
      ResponseStreamSucceeds(s, s3, first);
    } else {
      ReadLoopDeliversStream(s3, first.bytesRead);
    }
  }

  lemma ResponseStreamSucceeds(s: Session, s3: Session, first: ReadResult)
    requires Transport.Valid(s.request) && IsSuccess(s.request.status)
    requires first == InitialRead(s.request) && s3.request == first.request
    requires s3.toUi.room.Unbounded? && s3.toUi.items == s.toUi.items + [ResponseStarted]
    ensures var r := OnReadCompleted(s3, first.bytesRead);
            var t := s.request;
            && r.exit == Finished
            && r.session.toUi.items == s.toUi.items + [ResponseStarted]
                 + DataOf(Chunks(t.script)) + Completion(StatusAfter(t.status, t.script))
            && r.session.request.status == StatusAfter(t.status, t.script)
  {
    ReadLoopDeliversStream(s3, first.bytesRead);
    FirstReadStream(s.request, first);
  }

  /** `OnResponseStarted` is the read loop entered after the first read,
      with `ResponseStarted` already posted. */
  lemma ResponseStartsLoop(s: Session, s3: Session, first: ReadResult)
    requires Transport.Valid(s.request) && s.toUi.room.Unbounded?
    requires first == InitialRead(s.request)
    requires s3 == (if IsSuccess(s.request.status) then s.(responseHeaders := Some(s.request.responseHeaders)) else s)
                     .(toUi := Post(s.toUi, ResponseStarted).queue, request := first.request)
    ensures s3.toUi.room.Unbounded? && s3.toUi.items == s.toUi.items + [ResponseStarted]
    ensures OnResponseStarted(s) == OnReadCompleted(s3, first.bytesRead)
  {
  }

  /** The synchronous first read of a successful request starts the same
      stream the whole script describes. */
  lemma FirstReadStream(t: Request, first: ReadResult)
    requires Transport.Valid(t) && IsSuccess(t.status)
    requires first == InitialRead(t)
    ensures var u := first.request;
            && (first.bytesRead > 0 ==>
                  && [Data(u.buffer[..first.bytesRead])] + DataOf(Chunks(u.script)) + Completion(StatusAfter(u.status, u.script))
                     == DataOf(Chunks(t.script)) + Completion(StatusAfter(t.status, t.script))
                  && StatusAfter(u.status, u.script) == StatusAfter(t.status, t.script))
            && (first.bytesRead <= 0 ==>
                  && Completion(u.status) == DataOf(Chunks(t.script)) + Completion(StatusAfter(t.status, t.script))
                  && u.status == StatusAfter(t.status, t.script))
  {
    if |t.script| > 0 {
      match t.script[0]
      case Bytes(c) =>
        if |c| > 0 {
          CopyOutRecoversRead(t.buffer, c);
          assert first.request.buffer[..|c|] == c;
          assert DataOf(Chunks(t.script)) == [Data(c)] + DataOf(Chunks(t.script[1..]));
        }
      case Pending =>
      case Fail(e) =>
    }
  }

  /** Whatever the UI thread accepts, one `OnReadCompleted` call posts at
      most one `Completed`, and none when it returned early after a failed
      data post. */
  lemma AtMostOneCompletion(s: Session, bytesRead: int)
    requires Transport.Valid(s.request)
    requires bytesRead <= BufferSize
    ensures var r := OnReadCompleted(s, bytesRead);
            var added := Appended(s.toUi, r.session.toUi);
            && (forall i, j :: 0 <= i < j < |added| ==> !(added[i].Completed? && added[j].Completed?))
            && (r.exit == Abandoned ==> forall i :: 0 <= i < |added| ==> added[i].Data?)
  {
  }

  /** Scenario: a 12-byte body read in one go, then end of stream. */
  lemma TwelveByteResponse(s: Session, body: seq<byte>)
    requires Transport.Valid(s.request)
    requires s.toUi.room.Unbounded? && s.toUi.items == []
    requires s.request.status == Success && |body| == 12
    requires s.request.script == [Bytes(body), Bytes([])]
    ensures OnResponseStarted(s).session.toUi.items == [ResponseStarted, Data(body), Completed]
    ensures OnResponseStarted(s).session.request.status == Success
  {
    ResponseDeliversStream(s);
    assert Chunks(s.request.script) == [body];
  }

  /** Scenario: the first read fails after the response started. */
  lemma FailedReadResponse(s: Session, error: int)
    requires Transport.Valid(s.request)
    requires s.toUi.room.Unbounded? && s.toUi.items == []
    requires s.request.status == Success
    requires s.request.script == [Fail(error)]
    ensures OnResponseStarted(s).session.toUi.items == [ResponseStarted, Completed]
    ensures OnResponseStarted(s).session.request.status == Failed(error)
  {
    ResponseDeliversStream(s);
  }
}

=== FILE: wrappers.dfy ===
/** Failure-compatible wrappers shared by every module of the model:
    `Option` for values JavaScript reports as `undefined` or a lookup that
    may miss, `Result` for operations that return or throw. */
module Wrappers {

  datatype Option<+T> = None | Some(value: T)

  datatype Result<+R, +E> = Ok(value: R) | Err(error: E)

  /** Truthiness of a string that may be `undefined`: present and non-empty. */
  predicate Given(o: Option<string>) {
    o.Some? && o.value != ""
  }
}
